=== FILE: README.md ===
# RotaOiti tracking service — a Dafny model

This project models the core of the Android foreground service of the RotaOiti
driver app (`LocationForegroundService.kt`). For each position fix, the
service:

- posts the position, at most once every four seconds;
- runs a stop detector that registers a stop when the truck has stood still
  away from the garage for a configured number of minutes.

A stop is posted at once or, failing that, saved to a local offline table.
A background loop drains three offline tables whenever the device is online:

- delivery confirmations (with photos);
- stops;
- refuels (with photos).

The model is pure functional Dafny:

- The detector state is a value passed into and out of each step.
- The offline tables are sequences of rows.
- The SQL statements are functions over those sequences, addressed by key.
- The outside world is a set of parameters. The distance function is an
  abstract function-valued field. The server's answer for each row is an
  oracle. The file system is a map from path to length. The clock is a
  `now` argument.

Modules, following the source's structure:

- `Common`: options, coordinates and the token check.
- `Window`: the bounded sample window that both stability checks use.
- `Stability`: the coarse five-sample filter `estaRealmenteParado`.
- `Detector`: `detectarParada` and `handleLocation`.
- `DetectorRuns`: the detector over whole streams of fixes.
- `Queue`: the rows, the single-row statements, and the reference meaning of
  a drain (each row meets a fate decided by that row alone).
- `Attachments`: which photo files a request carries.
- `StopQueue`, `RefuelQueue`, `DeliveryQueue`: the three submit/drain
  paths.
- `Throttle`: the location-send throttle.
- `Sync`: one iteration of the sync loop.

Two behaviours of the queues are worth stating up front:

- **Stop rows are never deleted.** The stop drain only runs
  `UPDATE … SET enviado = 1` after a 2xx response, and it never marks rows in
  flight. `StopQueue.DrainFlagsSentRows` proves that a drain deletes nothing.
- **A row left at `enviando = 1` is never selected again.** The refuel and
  delivery SELECTs take only rows whose `enviando` is null or 0. A drain
  interrupted between marking a row and resolving it therefore strands that
  row for good. `RefuelQueue.StrandedRowStays` proves this for one drain and
  `RefuelQueue.StrandedRowOutlivesDrains` for any number of them.

## Model

| member | source | states |
|---|---|---|
| Window.Push | android/app/src/main/kotlin/com/example/rotaoitimobile/LocationForegroundService.kt:230-234 | appending a sample and evicting at most one old one keeps the newest `cap` samples; the result is within capacity and ends with the new sample |
| Window.PushNewest | android/app/src/main/kotlin/com/example/rotaoitimobile/LocationForegroundService.kt:230-234 | pushing onto the newest `cap` samples of a history gives the newest `cap` samples of the longer history, so the window is a sliding suffix |
| Stability.CoarseCheck | android/app/src/main/kotlin/com/example/rotaoitimobile/LocationForegroundService.kt:229-238 | the updated window is the newest five samples; the verdict is true exactly when every sample in it is at most 8.0 m; a true verdict means the new sample is at most 8.0 m |
| Stability.WindowIsNewest | android/app/src/main/kotlin/com/example/rotaoitimobile/LocationForegroundService.kt:229-238 | after any number of calls, the buffer holds exactly the newest five samples ever passed in |
| Stability.VerdictIsNewestWithinLimit | android/app/src/main/kotlin/com/example/rotaoitimobile/LocationForegroundService.kt:229-238 | the latest verdict is true exactly when the newest five samples are all at most 8.0 m |
| Stability.ExcursionBlocksStillness | android/app/src/main/kotlin/com/example/rotaoitimobile/LocationForegroundService.kt:229-238 | a sample above 8.0 m makes the verdict false on its own call and on each of the four calls after it |
| Stability.FiveQuietSamplesSettle | android/app/src/main/kotlin/com/example/rotaoitimobile/LocationForegroundService.kt:229-238 | five consecutive samples of at most 8.0 m make the verdict true, whatever came before |
| Detector.MinDwellMillis | android/app/src/main/kotlin/com/example/rotaoitimobile/LocationForegroundService.kt:87-91 | the minimum dwell is whole seconds in milliseconds, equal to `minutes * 60000` up to 35791394 minutes; at 35791395 minutes the 32-bit product wraps and the threshold becomes negative |
| Detector.StartConfig | android/app/src/main/kotlin/com/example/rotaoitimobile/LocationForegroundService.kt:87-91 | the detector configuration built at start-up keeps the garage and distance, and its dwell threshold is `minutes * 60000` for any realistic minute count |
| Detector.Detect | android/app/src/main/kotlin/com/example/rotaoitimobile/LocationForegroundService.kt:240-321 | an inaccurate fix is ignored; a stop is emitted exactly when the dwell matures; the last position is either kept or becomes the fix |
| Detector.HandleLocation | android/app/src/main/kotlin/com/example/rotaoitimobile/LocationForegroundService.kt:240-321 | `handleLocation` (line 152) then overwrites the previous position with every fix, rejected or not; the window stays within six samples; the dwell clock is untouched or restarted at `now`. Per branch: the garage resets the clock and empties the window; the first accepted fix only starts the clock; an unstable fix resets; the first stable fix sets the anchor; an immature dwell keeps its clock; a stop is registered exactly when an accurate fix away from the garage is stable (all six displacements below 5 m, speed below the float 0.35) with a dwell of at least the minimum; the stop spans the whole dwell; the anchor moves only farther than 20 m |
| DetectorRuns.RunKeepsWindowBound | android/app/src/main/kotlin/com/example/rotaoitimobile/LocationForegroundService.kt:273-275 | from a fresh service, the fine window never holds more than six displacements |
| DetectorRuns.RunSpacesStops | android/app/src/main/kotlin/com/example/rotaoitimobile/LocationForegroundService.kt:291-311 | over non-decreasing times, every stop lasts at least the minimum dwell, and each stop starts no earlier than the previous one ended, within the stream's time span |
| DetectorRuns.StopCountBound | android/app/src/main/kotlin/com/example/rotaoitimobile/LocationForegroundService.kt:291-311 | a stream spanning less than `(n + 1)` minimum dwells registers at most `n` stops |
| Queue.Select | android/app/src/main/kotlin/com/example/rotaoitimobile/LocationForegroundService.kt:449-452 | the SELECT returns exactly the table's pending rows and no more rows than the table holds: unsent and idle for refuels as here; unsent only for stops (line 398); unsent, idle and finished for deliveries (lines 589-594) |
| Queue.SelectInOrder | android/app/src/main/kotlin/com/example/rotaoitimobile/LocationForegroundService.kt:589-594 | each of the three SELECTs (also lines 398 and 449-452) returns rows in table order: its i-th row is the table's row at the i-th pending position, and those positions are exactly the pending ones, strictly increasing, so each pending row comes back once and nothing else does |
| Queue.SetSent | android/app/src/main/kotlin/com/example/rotaoitimobile/LocationForegroundService.kt:422 | the update flags exactly the rows with the key and leaves the rest and the length as they were |
| Queue.SetInFlight | android/app/src/main/kotlin/com/example/rotaoitimobile/LocationForegroundService.kt:488-491 | the update changes `enviando` on exactly the rows with the key |
| Queue.DeleteKey | android/app/src/main/kotlin/com/example/rotaoitimobile/LocationForegroundService.kt:533-536 | the delete removes exactly the rows with the key, and the result is no longer than the table |
| Queue.DeleteKeyInOrder | android/app/src/main/kotlin/com/example/rotaoitimobile/LocationForegroundService.kt:533-536 | the refuel DELETE here and the delivery DELETE at lines 659-662 keep every other row once and in place: the i-th surviving row is the table's row at the i-th position whose key differs, and those positions are exactly the ones whose key differs, strictly increasing |
| Queue.Expected | android/app/src/main/kotlin/com/example/rotaoitimobile/LocationForegroundService.kt:530-552 | reference meaning of a drain: every row's fate is in the result, and every row of the result comes from some row's fate |
| Queue.SettlePendingIsExpected | android/app/src/main/kotlin/com/example/rotaoitimobile/LocationForegroundService.kt:454-553 | with unique keys, settling the selected keys one after another equals the reference meaning |
| Attachments.Choose | android/app/src/main/kotlin/com/example/rotaoitimobile/LocationForegroundService.kt:513-522 | exactly the attachable paths are attached, each tagged with its list position, in order |
| Attachments.RefuelPhotoAttachedIff | android/app/src/main/kotlin/com/example/rotaoitimobile/LocationForegroundService.kt:513-521 | a refuel photo is attached exactly when its column is non-null and non-blank and names an existing file larger than 100 bytes |
| Attachments.DeliveryPhotoAttachedIff | android/app/src/main/kotlin/com/example/rotaoitimobile/LocationForegroundService.kt:639-648 | a delivery photo is attached exactly when its file exists, whatever its size |
| StopQueue.Submit | android/app/src/main/kotlin/com/example/rotaoitimobile/LocationForegroundService.kt:323-394 | a stop is sent online exactly when connected with a truck id and a 2xx response; it is saved exactly when otherwise the database is open, the truck id is present and the insert succeeds, possibly on its one retry after a lock error; a saved stop is one appended unsent row carrying the stop's data; otherwise the table is unchanged |
| StopQueue.SendAll | android/app/src/main/kotlin/com/example/rotaoitimobile/LocationForegroundService.kt:399-429 | one request per selected row in cursor order; the table is settled for the selected keys |
| StopQueue.Drain | android/app/src/main/kotlin/com/example/rotaoitimobile/LocationForegroundService.kt:396-431 | no database or no token: nothing happens; otherwise every unsent row is sent in order, and with unique keys the table becomes the reference outcome |
| StopQueue.ExpectedFlagsInPlace | android/app/src/main/kotlin/com/example/rotaoitimobile/LocationForegroundService.kt:420-423 | the reference outcome for stops keeps length and position and flags exactly the unsent rows answered 2xx |
| StopQueue.DrainFlagsSentRows | android/app/src/main/kotlin/com/example/rotaoitimobile/LocationForegroundService.kt:396-431 | a drain deletes no stop: same length, and each row is either flagged `enviado = 1` after a 2xx response or left exactly as it was |
| StopQueue.SavedStopIsSentNextDrain | android/app/src/main/kotlin/com/example/rotaoitimobile/LocationForegroundService.kt:358-398 | a stop saved offline is attempted by the next drain that has a database and a token |
| RefuelQueue.Flush | android/app/src/main/kotlin/com/example/rotaoitimobile/LocationForegroundService.kt:486-552 | the statements of the cursor loop leave the table settled for exactly the selected keys |
| RefuelQueue.Drain | android/app/src/main/kotlin/com/example/rotaoitimobile/LocationForegroundService.kt:445-555 | no database or no token: nothing happens; otherwise exactly the pending rows are attempted in table order, and with unique keys the table becomes the reference outcome |
| RefuelQueue.DrainSettlesEachRow | android/app/src/main/kotlin/com/example/rotaoitimobile/LocationForegroundService.kt:486-552 | unselected rows stay; a row answered 2xx is deleted; any other answer or an exception puts the row back with `enviando = 0`; no other row appears |
| RefuelQueue.AddsNothing | android/app/src/main/kotlin/com/example/rotaoitimobile/LocationForegroundService.kt:530-552 | a refuel drain creates no rows other than released copies of pending rows |
| RefuelQueue.AttemptedIffPending | android/app/src/main/kotlin/com/example/rotaoitimobile/LocationForegroundService.kt:449-455 | a drain with a database and a token sends a key exactly when some unsent, idle row carries it |
| RefuelQueue.StrandedRowStays | android/app/src/main/kotlin/com/example/rotaoitimobile/LocationForegroundService.kt:449-452 | a row left at `enviando = 1` survives a drain of a table with unique keys, and that drain attempts nothing with its key |
| RefuelQueue.DrainKeepsUniqueKeys | android/app/src/main/kotlin/com/example/rotaoitimobile/LocationForegroundService.kt:445-555 | a drain leaves the table's keys unique, so the one-drain results apply again to the next drain |
| RefuelQueue.StrandedRowOutlivesDrains | android/app/src/main/kotlin/com/example/rotaoitimobile/LocationForegroundService.kt:449-452 | a row left at `enviando = 1` is still in the table after any number of drains, whatever their responses |
| RefuelQueue.NextDrainRetriesOnlyFailures | android/app/src/main/kotlin/com/example/rotaoitimobile/LocationForegroundService.kt:531-552 | after a drain, the next drain attempts a pending row exactly when its first send did not get a 2xx response |
| DeliveryQueue.HasPending | android/app/src/main/kotlin/com/example/rotaoitimobile/LocationForegroundService.kt:576-584 | the pending check is true exactly when the database is open and some row is unsent, idle and finished |
| DeliveryQueue.Marked | android/app/src/main/kotlin/com/example/rotaoitimobile/LocationForegroundService.kt:618-628 | the rows that go on to be sent are exactly the selected rows whose in-flight mark succeeds, and no more rows than were selected; a failed mark skips the row |
| DeliveryQueue.MarkedInOrder | android/app/src/main/kotlin/com/example/rotaoitimobile/LocationForegroundService.kt:618-628 | the rows sent keep cursor order: the i-th is the selected row at the i-th position whose mark succeeds, and those positions are exactly the ones whose mark succeeds, strictly increasing, so no row is sent twice |
| Attachments.RequestCarriesRule | android/app/src/main/kotlin/com/example/rotaoitimobile/LocationForegroundService.kt:513-522 | a row's request carries the row's kind and key, and a photo exactly when the row names that path at that position and the path passes the kind's rule (for a refuel: non-blank, existing, over 100 bytes), in position order |
| Attachments.RequestsCarryRule | android/app/src/main/kotlin/com/example/rotaoitimobile/LocationForegroundService.kt:630-656 | the drain's requests, index by index: request i carries row i's kind and key (for a delivery, `entrega_id`) and exactly the photos row i lists whose file exists, each as `fotos[position]` |
| DeliveryQueue.Flush | android/app/src/main/kotlin/com/example/rotaoitimobile/LocationForegroundService.kt:618-681 | the statements of the cursor loop leave the table settled for exactly the selected keys |
| DeliveryQueue.Drain | android/app/src/main/kotlin/com/example/rotaoitimobile/LocationForegroundService.kt:586-684 | no database or no token: nothing happens; otherwise exactly one request goes out per finished pending row whose mark succeeds, in table order; with unique keys the table becomes the reference outcome |
| DeliveryQueue.MalformedPhotosStillSent | android/app/src/main/kotlin/com/example/rotaoitimobile/LocationForegroundService.kt:606-616 | a delivery whose photo list fails to parse is still sent when its mark succeeds, with no files attached |
| DeliveryQueue.DrainSettlesEachRow | android/app/src/main/kotlin/com/example/rotaoitimobile/LocationForegroundService.kt:618-681 | a row not selected or whose mark fails stays unchanged; a row answered 2xx is deleted by `entrega_id`; any other answer puts it back with `enviando = 0` |
| DeliveryQueue.SkipWhenIdleIsHarmless | android/app/src/main/kotlin/com/example/rotaoitimobile/LocationForegroundService.kt:213-215 | when nothing is pending, skipping the delivery drain gives the same result as running it |
| Throttle.Admit | android/app/src/main/kotlin/com/example/rotaoitimobile/LocationForegroundService.kt:158-161 | a position is posted exactly when at least 4000 ms have passed since the last post, and only a post moves the last-post time |
| Throttle.ReplayIsPaced | android/app/src/main/kotlin/com/example/rotaoitimobile/LocationForegroundService.kt:158-161 | over any handling times, the posts are at least 4000 ms apart and the first comes at least 4000 ms after the start value; each post is one of the handling times, and the throttle remembers the latest post |
| Throttle.PostsAreSubsequence | android/app/src/main/kotlin/com/example/rotaoitimobile/LocationForegroundService.kt:158-161 | the posts are a subsequence of the handling times: each post is the handling time at its index, and the indices strictly increase |
| Throttle.PacedStreamPassesUnchanged | android/app/src/main/kotlin/com/example/rotaoitimobile/LocationForegroundService.kt:158-161 | handling times that are already 4000 ms apart are all posted, so the throttle drops only early fixes |
| Throttle.ReplayIdempotent | android/app/src/main/kotlin/com/example/rotaoitimobile/LocationForegroundService.kt:158-161 | feeding the posted times through a fresh throttle posts them all again |
| Throttle.PostCountBound | android/app/src/main/kotlin/com/example/rotaoitimobile/LocationForegroundService.kt:158-161 | handling times within `(n + 1) * 4000` ms of the start value yield at most `n` posts |
| Sync.Tick | android/app/src/main/kotlin/com/example/rotaoitimobile/LocationForegroundService.kt:207-224 | when offline, nothing is read or written; without a database or a token, nothing happens; requests run deliveries first, then stops, then refuels; with unique keys each table ends in its reference outcome |
| Sync.TickIsThreeDrains | android/app/src/main/kotlin/com/example/rotaoitimobile/LocationForegroundService.kt:212-220 | a connected iteration equals running all three drains unconditionally |

## Left out

- Platform I/O is left out:
  - the fused location client, notifications and lifecycle (`onStartCommand`, `onDestroy`);
  - the bridge log to the Flutter side (`sendLogFlutter`);
  - `MainActivity.kt` and the build script.
- The haversine body of `distanciaMetros` is left out. Distance is the abstract field `Detector.Config.dist`, so every property holds for any distance function.
- Floating point is left out. Distances and accuracies are reals. The only float constant that differs from its decimal, `0.35f`, is written as its exact value.
- `Detector.HandleLocation` has these gaps:
  - it takes `now` as an argument instead of reading the clock;
  - it does not model the coroutine in which `registrarParada` runs, so the stop event is returned rather than launched;
  - `ultimoRegistroParada` and `MIN_DIST_PARADA_METROS` are declared in the source but never used, so the model has neither.
- Concurrency is left out: `Throttle.Admit` reads and writes `lastLocationSentAt` inside a launched coroutine, and two launches may race. The model handles fixes one at a time. The content of the location post and its response (which is only logged) are not modelled either.
- JSON, SQL text and HTTP are left out. Each row carries only the columns the drain logic reads. Scalar form fields that are only copied into a request (driver, fuel, prices, odometer, notes) are not modelled.
- A delivery's `fotos` column is modelled already decoded: `None` when it does not parse, and a list of strings otherwise. JSON string coercion of non-string elements is not modelled.
- `RefuelQueue.Drain`: the `enviando = 1` update at line 488 sits outside the `runCatching` block. If it throws, the exception leaves the drain and ends the sync loop. The model assumes that update succeeds.
- `StopQueue.Drain`: an `UPDATE … SET enviado = 1` that throws after a 2xx response is caught and leaves the row unsent. The model does not separate this from a failed send; the oracle's answer covers both.
- `RefuelQueue.Drain` and `DeliveryQueue.Drain`: a DELETE or release that throws inside the try block is folded into the send outcome in the same way. A release that throws inside the catch block is not modelled.
- `Queue.Oracle` answers per key for one drain. It cannot express the server answering two rows with the same key differently, and the table-level results assume unique keys.
- `Stability.CoarseCheck` stands apart from the detector: nothing in the source calls `estaRealmenteParado`. In the source it pushes into the same `bufferDistancias` (line 76) that `detectarParada` fills to six entries (lines 274-275); the model gives it a window of its own with at most five entries.
- The drains read their SELECT as a snapshot: the cursor is taken to hold the whole result set as it was when the query ran, while the DELETE and UPDATE statements write to the live table by key.
- `Attachments.IsWhitespace` follows Kotlin's `isWhitespace` for the Basic Multilingual Plane only.
- The ten-second delay between sync iterations and the cancellation of the loop are not modelled; `Sync.Tick` is a single iteration.
- `Detector.MinDwellMillis` models the start-up computation for any 32-bit minute count. The `caminhao_id` default of 0 from the start intent is outside the model: the truck id is a parameter that may be absent.

=== FILE: attachments.dfy ===
/**
 * Which photo files a drain attaches to its multipart request. The file
 * system is an input: a map from path to length in bytes, where a path that
 * is absent does not exist.
 */
module Attachments {
  import opened Common
  import opened Queue

  type Files = map<string, int>

  /** Refuels demand a non-blank path to a file of more than 100 bytes; deliveries only an existing file. */
  datatype Rule = SizedFile | AnyFile

  const MinPhotoBytes: int := 100

  /** Kotlin's `Char.isWhitespace`: Java whitespace plus the Unicode space separators. */
  predicate IsWhitespace(c: char)
  {
    || ('\t' <= c <= '\r')
    || ('\U{1C}' <= c <= '\U{1F}')
    || c == ' '
    || c == '\U{A0}'
    || c == '\U{1680}'
    || ('\U{2000}' <= c <= '\U{200A}')
    || c == '\U{2028}' || c == '\U{2029}'
    || c == '\U{202F}' || c == '\U{205F}'
    || c == '\U{3000}'
  }

  /** `isBlank`: empty or whitespace only. */
  predicate IsBlank(s: string)
  {
    forall i :: 0 <= i < |s| ==> IsWhitespace(s[i])
  }

  predicate Attachable(rule: Rule, path: string, fs: Files)
  {
    match rule
    case SizedFile => !IsBlank(path) && path in fs && fs[path] > MinPhotoBytes
    case AnyFile => path in fs
  }

  /**
   * The parts attached for `paths[from..]`: exactly the attachable paths,
   * each tagged with its position, in list order.
   */
  function Choose(rule: Rule, paths: seq<string>, fs: Files, from: nat): (r: seq<Part>)
    ensures forall p :: p in r ==> from <= p.slot < |paths| && paths[p.slot] == p.path && Attachable(rule, p.path, fs)
    ensures forall j :: from <= j < |paths| && Attachable(rule, paths[j], fs) ==> Part(j, paths[j]) in r
    ensures forall a, b :: 0 <= a < b < |r| ==> r[a].slot < r[b].slot
    decreases |paths| - from
  {
    if from >= |paths| then []
    else
      var rest := Choose(rule, paths, fs, from + 1);
      (if Attachable(rule, paths[from], fs) then [Part(from, paths[from])] else []) + rest
  }

  /** The multipart field names of the refuel photo columns, in column order. */
  const RefuelPhotoFields: seq<string> :=
    ["foto_placa", "foto_bomba", "foto_odometro", "foto_marcador_combustivel", "foto_talao", "foto_cupom"]

  /** The paths a refuel row names, a null column read as the empty path. */
  function RefuelPaths(x: Record): (r: seq<string>)
    ensures x.payload.RefuelData? ==> |r| == |x.payload.photoColumns|
    ensures x.payload.RefuelData? ==> forall i :: 0 <= i < |r| && x.payload.photoColumns[i].None? ==> r[i] == ""
  {
    match x.payload
    case RefuelData(_, cols) => seq(|cols|, i requires 0 <= i < |cols| => OrEmpty(cols[i]))
    case _ => []
  }

  /** The paths a delivery row names; a photo list that failed to parse names none. */
  function DeliveryPaths(x: Record): (r: seq<string>)
    ensures x.payload.DeliveryData? && x.payload.photoList.None? ==> r == []
    ensures x.payload.DeliveryData? && x.payload.photoList.Some? ==> r == x.payload.photoList.value
  {
    match x.payload
    case DeliveryData(_, Some(ps)) => ps
    case _ => []
  }

  /** The photos a refuel request carries; `slot` indexes `RefuelPhotoFields`. */
  function RefuelParts(x: Record, fs: Files): (r: seq<Part>)
    ensures x.payload.RefuelData? && |x.payload.photoColumns| == |RefuelPhotoFields| ==>
      forall p :: p in r ==> p.slot < |RefuelPhotoFields|
  {
    Choose(SizedFile, RefuelPaths(x), fs, 0)
  }

  /** The photos a delivery request carries, as `fotos[slot]`. */
  function DeliveryParts(x: Record, fs: Files): seq<Part>
  {
    Choose(AnyFile, DeliveryPaths(x), fs, 0)
  }

  /** The request a drain sends for row `x`: its key and the photos that pass the kind's rule. */
  function Request(kind: Kind, x: Record, fs: Files): Attempt
  {
    var parts := match kind
      case Refuels => RefuelParts(x, fs)
      case Deliveries => DeliveryParts(x, fs)
      case Stops => [];
    Attempt(kind, x.key, parts)
  }

  /** One request per row, in order. */
  function Requests(kind: Kind, rows: seq<Record>, fs: Files): (r: seq<Attempt>)
    ensures |r| == |rows|
    ensures forall i :: 0 <= i < |rows| ==> r[i].key == rows[i].key && r[i] == Request(kind, rows[i], fs)
  {
    seq(|rows|, i requires 0 <= i < |rows| => Request(kind, rows[i], fs))
  }

  /** The paths a row of each kind names; a stop carries no photos. */
  function PhotoPaths(kind: Kind, x: Record): seq<string>
  {
    match kind
    case Refuels => RefuelPaths(x)
    case Deliveries => DeliveryPaths(x)
    case Stops => []
  }

  function RuleOf(kind: Kind): Rule
  {
    if kind == Refuels then SizedFile else AnyFile
  }

  /**
   * A row's request carries its kind and key, and a photo exactly when the
   * row names that path at that position and the path passes the kind's
   * rule, in position order.
   */
  lemma RequestCarriesRule(kind: Kind, x: Record, fs: Files)
    ensures Request(kind, x, fs).kind == kind && Request(kind, x, fs).key == x.key
    ensures forall p: Part :: p in Request(kind, x, fs).parts <==>
      p.slot < |PhotoPaths(kind, x)| && p.path == PhotoPaths(kind, x)[p.slot] && Attachable(RuleOf(kind), p.path, fs)
    ensures forall a, b :: 0 <= a < b < |Request(kind, x, fs).parts| ==>
      Request(kind, x, fs).parts[a].slot < Request(kind, x, fs).parts[b].slot
  {
  }

  /**
   * The drain's requests, row by row: request i carries row i's kind and
   * key, and exactly the photos row i names that pass the kind's rule.
   */
  lemma RequestsCarryRule(kind: Kind, rows: seq<Record>, fs: Files)
    ensures |Requests(kind, rows, fs)| == |rows|
    ensures forall i :: 0 <= i < |rows| ==>
      Requests(kind, rows, fs)[i].kind == kind && Requests(kind, rows, fs)[i].key == rows[i].key
    ensures forall i, p: Part :: 0 <= i < |rows| ==>
      (p in Requests(kind, rows, fs)[i].parts <==>
        p.slot < |PhotoPaths(kind, rows[i])| && p.path == PhotoPaths(kind, rows[i])[p.slot]
        && Attachable(RuleOf(kind), p.path, fs))
  {
  }

  /** Every request is the request of one of the rows, and every row's request is there. */
  lemma RequestsOfRows(kind: Kind, rows: seq<Record>, fs: Files)
    ensures forall a :: a in Requests(kind, rows, fs) <==> exists x :: x in rows && a == Request(kind, x, fs)
  {
    var r := Requests(kind, rows, fs);
    forall a | a in r
      ensures exists x :: x in rows && a == Request(kind, x, fs)
    {
      var i :| 0 <= i < |r| && r[i] == a;
      assert rows[i] in rows;
    }
    forall x | x in rows
      ensures Request(kind, x, fs) in r
    {
      var i :| 0 <= i < |rows| && rows[i] == x;
      assert r[i] == Request(kind, x, fs);
    }
  }

  /** The requests carry exactly the keys of the rows. */
  lemma RequestedKeys(kind: Kind, rows: seq<Record>, fs: Files, k: int)
    ensures var a := Requests(kind, rows, fs);
      (exists i :: 0 <= i < |a| && a[i].key == k) <==> exists y :: y in rows && y.key == k
  {
    var a := Requests(kind, rows, fs);
    if exists i :: 0 <= i < |a| && a[i].key == k {
      var i :| 0 <= i < |a| && a[i].key == k;
      assert rows[i] in rows;
    }
    if exists y :: y in rows && y.key == k {
      var y :| y in rows && y.key == k;
      var i :| 0 <= i < |rows| && rows[i] == y;
      assert a[i].key == k;
    }
  }

  /**
   * A refuel photo is attached exactly when its column names a non-blank
   * path to an existing file longer than 100 bytes; a null column never is.
   */
  lemma RefuelPhotoAttachedIff(x: Record, fs: Files, j: nat)
    requires x.payload.RefuelData? && j < |x.payload.photoColumns|
    ensures (exists p :: p in RefuelParts(x, fs) && p.slot == j) <==>
      var c := x.payload.photoColumns[j];
      c.Some? && !IsBlank(c.value) && c.value in fs && fs[c.value] > MinPhotoBytes
  {
    var paths := RefuelPaths(x);
    if Attachable(SizedFile, paths[j], fs) {
      assert Part(j, paths[j]) in RefuelParts(x, fs);
    }
  }

  /** A delivery photo is attached exactly when the file exists, whatever its size. */
  lemma DeliveryPhotoAttachedIff(x: Record, fs: Files, j: nat)
    requires x.payload.DeliveryData? && x.payload.photoList.Some? && j < |x.payload.photoList.value|
    ensures (exists p :: p in DeliveryParts(x, fs) && p.slot == j) <==> x.payload.photoList.value[j] in fs
  {
    var paths := DeliveryPaths(x);
    if Attachable(AnyFile, paths[j], fs) {
      assert Part(j, paths[j]) in DeliveryParts(x, fs);
    }
  }
}

=== FILE: common.dfy ===
/** Types shared by the detector and the sync queues. */
module Common {

  /** A value that may be absent; the model's stand-in for Kotlin's nullable types. */
  datatype Option<+T> = None | Some(value: T)

  /** A geographic position in decimal degrees. */
  datatype Coord = Coord(lat: real, lon: real)

  /** `String.isNullOrEmpty()` negated: a credential is usable only when present and non-empty. */
  predicate HasToken(token: Option<string>)
  {
    token.Some? && |token.value| > 0
  }

  /** The `?: ""` fallback applied to nullable text columns. */
  function OrEmpty(s: Option<string>): string
  {
    match s
    case Some(v) => v
    case None => ""
  }
}

=== FILE: delivery_queue.dfy ===
/**
 * The delivery-confirmation queue (`hasPendingDeliveries`,
 * `enviarEntregasPendentes`). Rows are addressed by `entrega_id`; only
 * finished deliveries are selected; a row whose in-flight mark cannot be
 * written is skipped for this pass.
 */
module DeliveryQueue {
  import opened Common
  import opened Queue
  import opened Attachments

  /**
   * The statements issued for one row with key `k`: if marking it in flight
   * fails the row is skipped; else it is deleted on a 2xx response and
   * released otherwise.
   */
  function SendOne(t: seq<Record>, k: int, o: Oracle): seq<Record>
  {
    if !o.mark(k) then t
    else
      var marked := SetInFlight(t, k, Some(1));
      if o.send(k) == Accepted then DeleteKey(marked, k) else SetInFlight(marked, k, Some(0))
  }

  /** One row's statements settle exactly the rows carrying its key. */
  lemma SendOneSettles(t: seq<Record>, k: int, o: Oracle)
    ensures SendOne(t, k, o) == Settle(t, {k}, Deliveries, o)
  {
    EffectIsSettle(t, k, Deliveries, o);
    if !o.mark(k) {
      assert SendOne(t, k, o) == Effect(t, k, Keep);
    } else if o.send(k) == Accepted {
      MarkThenDelete(t, k);
      assert SendOne(t, k, o) == Effect(t, k, Remove);
    } else {
      MarkThenRelease(t, k);
      assert SendOne(t, k, o) == Effect(t, k, Release);
    }
  }

  /** The selected rows whose in-flight mark succeeds, in cursor order (`MarkedInOrder`); the others are skipped. */
  function Marked(sel: seq<Record>, o: Oracle): (r: seq<Record>)
    ensures forall x :: x in r <==> x in sel && o.mark(x.key)
    ensures |r| <= |sel|
  {
    if sel == [] then []
    else (if o.mark(sel[0].key) then [sel[0]] else []) + Marked(sel[1..], o)
  }

  lemma {:induction false} MarkedIsKept(sel: seq<Record>, o: Oracle)
    ensures Marked(sel, o) == Kept(MarkedBy(o), sel)
    decreases |sel|
  {
    if sel != [] {
      MarkedIsKept(sel[1..], o);
    }
  }

  /**
   * The rows sent keep cursor order: the i-th is the selected row at the i-th
   * position whose mark succeeds, and those positions are exactly the ones
   * whose mark succeeds, in increasing order, so no row is sent twice.
   */
  lemma MarkedInOrder(sel: seq<Record>, o: Oracle)
    ensures var r, idx := Marked(sel, o), Positions(MarkedBy(o), sel, 0);
      && |r| == |idx|
      && (forall i :: 0 <= i < |idx| ==> 0 <= idx[i] < |sel| && o.mark(sel[idx[i]].key) && r[i] == sel[idx[i]])
      && (forall j :: 0 <= j < |sel| && o.mark(sel[j].key) ==> j in idx)
      && (forall i, j :: 0 <= i < j < |idx| ==> idx[i] < idx[j])
  {
    MarkedIsKept(sel, o);
    KeptInOrder(MarkedBy(o), sel);
  }

  /**
   * The statements the cursor loop issues over the rows the SELECT returned.
   * A row's statements touch only rows carrying its key.
   */
  function Flush(t: seq<Record>, sel: seq<Record>, o: Oracle): (r: seq<Record>)
    ensures r == Settle(t, KeysOf(sel), Deliveries, o)
    decreases |sel|
  {
    if sel == [] then
      assert KeysOf(sel) == {};
      SettleNothing(t, Deliveries, o);
      t
    else
      var k := sel[0].key;
      SendOneSettles(t, k, o);
      SettleTwice(t, {k}, KeysOf(sel[1..]), Deliveries, o);
      KeysOfCons(sel);
      Flush(SendOne(t, k, o), sel[1..], o)
  }

  /**
   * One drain of the delivery table. Without an open database or a token
   * nothing happens; otherwise exactly one request goes out per finished
   * pending row whose mark succeeds, in table order, and (keys being unique)
   * the table becomes the reference outcome.
   */
  function Drain(open: bool, token: Option<string>, t: seq<Record>, o: Oracle, fs: Files): (r: Pass)
    ensures !open || !HasToken(token) ==> r == Pass(t, [])
    ensures open && HasToken(token) ==> r.attempts == Requests(Deliveries, Marked(Select(Deliveries, t), o), fs)
    ensures open && HasToken(token) ==>
      forall a :: a in r.attempts <==>
        exists x :: x in t && Pending(Deliveries, x) && o.mark(x.key) && a == Request(Deliveries, x, fs)
    ensures open && HasToken(token) && UniqueKeys(t) ==> r.table == Expected(t, Deliveries, o)
  {
    if !open || !HasToken(token) then Pass(t, [])
    else
      var sel := Select(Deliveries, t);
      var r := Pass(Flush(t, sel, o), Requests(Deliveries, Marked(sel, o), fs));
      RequestsOfRows(Deliveries, Marked(sel, o), fs);
      if UniqueKeys(t) then SettlePendingIsExpected(t, Deliveries, o); r else r
  }

  /**
   * A photo list that does not parse costs the delivery its photos, not its
   * confirmation: the row is still sent, with no files attached.
   */
  lemma MalformedPhotosStillSent(token: Option<string>, t: seq<Record>, o: Oracle, fs: Files, x: Record)
    requires HasToken(token) && x in t && Pending(Deliveries, x) && o.mark(x.key)
    requires x.payload.photoList.None?
    ensures Attempt(Deliveries, x.key, []) in Drain(true, token, t, o, fs).attempts
  {
    assert DeliveryPaths(x) == [];
    assert Request(Deliveries, x, fs) == Attempt(Deliveries, x.key, []);
  }

  /** `hasPendingDeliveries`: the drain's SELECT would return a row (no token needed). */
  function HasPending(open: bool, t: seq<Record>): (r: bool)
    ensures r <==> open && exists x :: x in t && Pending(Deliveries, x)
  {
    var sel := Select(Deliveries, t);
    assert sel != [] ==> sel[0] in sel;
    open && sel != []
  }

  /** Skipping the drain when nothing is pending changes nothing: the drain would be a no-op. */
  lemma SkipWhenIdleIsHarmless(open: bool, token: Option<string>, t: seq<Record>, o: Oracle, fs: Files)
    requires !HasPending(open, t)
    ensures Drain(open, token, t, o, fs) == Pass(t, [])
  {
    if open && HasToken(token) {
      assert Select(Deliveries, t) == [];
    }
  }

  /**
   * What a drain with a database and a token does to each row, keys being
   * unique: rows it does not select (unfinished, already sent, or left in
   * flight) and rows whose mark fails are left as they are; the others are
   * deleted on a 2xx response and otherwise put back with `enviando = 0`.
   */
  lemma {:induction false} DrainSettlesEachRow(token: Option<string>, t: seq<Record>, o: Oracle, fs: Files)
    requires HasToken(token) && UniqueKeys(t)
    ensures var t' := Drain(true, token, t, o, fs).table;
      && (forall x :: x in t && (!Pending(Deliveries, x) || !o.mark(x.key)) ==> x in t')
      && (forall x :: x in t && Pending(Deliveries, x) && o.mark(x.key) && o.send(x.key) == Accepted ==>
            forall y :: y in t' ==> y.key != x.key)
      && (forall x :: x in t && Pending(Deliveries, x) && o.mark(x.key) && o.send(x.key) != Accepted ==>
            x.(inFlight := Some(0)) in t')
  {
    ExpectedKeepsOthers(t, Deliveries, o);
    ExpectedKeepsPlanned(t, Deliveries, o);
    ExpectedRemovesPlanned(t, Deliveries, o);
    ExpectedReleasesPlanned(t, Deliveries, o);
  }
}

=== FILE: detector.dfy ===
/**
 * The stop detector (`detectarParada`) and the per-fix entry point that wraps
 * it (`handleLocation`). The detector state is an explicit value passed into
 * and returned from each step instead of the service's mutable fields.
 */
module Detector {
  import opened Common
  import opened Window

  /** Fixes reporting an accuracy radius above this many metres are ignored. */
  const MaxAccuracy: real := 35.0
  /** Fixes at most this many metres from the garage reset the dwell. */
  const GarageRadius: real := 100.0
  /** The fine stability window keeps this many displacements. */
  const FineCapacity: nat := 6
  /** Each displacement in the window must stay strictly below this many metres. */
  const FineLimit: real := 5.0
  /**
   * The speed ceiling `0.35f`: the value of the 32-bit float nearest to 0.35,
   * which is 11744051 / 2^25 (speed is a float too, so this is exact).
   */
  const StillSpeed: real := 11744051.0 / 33554432.0
  /** The registered-stop anchor moves only to sites farther than this many metres. */
  const AnchorRadius: real := 20.0

  /**
   * Start-up configuration. `dist` is the great-circle distance in metres
   * (`distanciaMetros`), left abstract; its arguments follow the source's
   * call order (current fix first).
   */
  datatype Config = Config(garage: Coord, minDwell: int, dist: (Coord, Coord) -> real)

  /** One position fix: accuracy radius in metres and speed in metres per second. */
  datatype Fix = Fix(pos: Coord, accuracy: real, speed: real)

  /**
   * `ultimaLocalizacao`, `inicioParada`, `ultimaParadaRegistrada` and
   * `bufferDistancias`.
   */
  datatype State = State(lastPos: Option<Coord>, dwellStart: Option<int>, anchor: Option<Coord>, window: seq<real>)

  /** A registered stop: where it was detected and the dwell it covers, in epoch milliseconds. */
  datatype StopEvent = StopEvent(pos: Coord, start: int, end: int)

  datatype Step = Step(state: State, event: Option<StopEvent>)

  /** The state of a freshly started service. */
  const Initial: State := State(None, None, None, [])

  /** `Int` arithmetic: the 32-bit two's-complement value congruent to `x`. */
  function WrapInt32(x: int): (r: int)
    ensures -0x8000_0000 <= r < 0x8000_0000
    ensures (x - r) % 0x1_0000_0000 == 0
    ensures -0x8000_0000 <= x < 0x8000_0000 ==> r == x
  {
    (x + 0x8000_0000) % 0x1_0000_0000 - 0x8000_0000
  }

  /**
   * `MIN_PARADA_MILLIS = paradaLongaMinutos * 60 * 1000L`: the first product
   * is taken in 32-bit `Int` arithmetic, only the second in `Long`.
   */
  function MinDwellMillis(minutes: int): (r: int)
    requires -0x8000_0000 <= minutes < 0x8000_0000
    ensures r % 1000 == 0
    ensures 0 <= minutes <= 35791394 ==> r == minutes * 60000
    ensures minutes == 35791395 ==> r < 0
  {
    WrapInt32(minutes * 60) * 1000
  }

  /**
   * The configuration `onStartCommand` builds from the start intent: the
   * garage position and the dwell threshold derived from the minute count.
   */
  function StartConfig(garage: Coord, minutes: int, dist: (Coord, Coord) -> real): (cfg: Config)
    requires -0x8000_0000 <= minutes < 0x8000_0000
    ensures cfg.garage == garage && cfg.dist == dist
    ensures cfg.minDwell % 1000 == 0
    ensures 0 <= minutes <= 35791394 ==> cfg.minDwell == minutes * 60000
  {
    Config(garage, MinDwellMillis(minutes), dist)
  }

  /** The fix passes the accuracy gate. */
  predicate Accurate(fix: Fix)
  {
    fix.accuracy <= MaxAccuracy
  }

  /** The fix lies within the garage radius. */
  predicate AtGarage(cfg: Config, fix: Fix)
  {
    cfg.dist(fix.pos, cfg.garage) <= GarageRadius
  }

  /** The window after a fix at displacement `d` from the previous position. */
  function NextWindow(st: State, d: real): seq<real>
  {
    Push(st.window, d, FineCapacity)
  }

  /**
   * Stability of a fix that has a previous position `prev`: every entry of
   * the updated window is below the flutter limit and the speed is below the
   * stillness ceiling.
   */
  predicate Stable(cfg: Config, st: State, fix: Fix, prev: Coord)
  {
    var w := NextWindow(st, cfg.dist(fix.pos, prev));
    AllBelow(w, FineLimit) && fix.speed < StillSpeed
  }

  /**
   * The conditions under which a fix registers a stop: it is accurate, away
   * from the garage, has a previous position, is stable, a dwell is running
   * and the dwell has lasted at least `minDwell`.
   */
  predicate Matures(cfg: Config, st: State, fix: Fix, now: int)
  {
    && Accurate(fix)
    && !AtGarage(cfg, fix)
    && st.lastPos.Some?
    && Stable(cfg, st, fix, st.lastPos.value)
    && st.dwellStart.Some?
    && now - st.dwellStart.value >= cfg.minDwell
  }

  /** Whether a stop registered at `pos` becomes the new anchor. */
  predicate MovesAnchor(cfg: Config, anchor: Option<Coord>, pos: Coord)
  {
    match anchor
    case None => true
    case Some(a) => cfg.dist(pos, a) > AnchorRadius
  }

  /** `detectarParada`: one detector step on its own, as the source writes it. */
  function Detect(cfg: Config, st: State, fix: Fix, now: int): (r: Step)
    ensures !Accurate(fix) ==> r == Step(st, None)
    ensures r.event.Some? <==> Matures(cfg, st, fix, now)
    ensures r.state.lastPos == st.lastPos || r.state.lastPos == Some(fix.pos)
  {
    if !Accurate(fix) then Step(st, None)
    else if AtGarage(cfg, fix) then
      Step(st.(dwellStart := Some(now), lastPos := Some(fix.pos), window := []), None)
    else
      match st.lastPos
      case None =>
        Step(st.(lastPos := Some(fix.pos), dwellStart := Some(now)), None)
      case Some(prev) =>
        var w := NextWindow(st, cfg.dist(fix.pos, prev));
        if Stable(cfg, st, fix, prev) then
          match st.dwellStart
          case None =>
            // the early return skips the final update of the last position
            Step(st.(dwellStart := Some(now), anchor := Some(fix.pos), window := w), None)
          case Some(start) =>
            if now - start >= cfg.minDwell then
              var anchor := if MovesAnchor(cfg, st.anchor, fix.pos) then Some(fix.pos) else st.anchor;
              Step(State(Some(fix.pos), Some(now), anchor, w), Some(StopEvent(fix.pos, start, now)))
            else
              Step(st.(lastPos := Some(fix.pos), window := w), None)
        else
          Step(st.(dwellStart := Some(now), window := [], lastPos := Some(fix.pos)), None)
  }

  /**
   * `handleLocation`: the detector step followed by the unconditional
   * overwrite of the last position, which also applies to rejected fixes.
   */
  function HandleLocation(cfg: Config, st: State, fix: Fix, now: int): (r: Step)
    // every fix, even a rejected one, becomes the previous position
    ensures r.state.lastPos == Some(fix.pos)
    // the window never outgrows its capacity
    ensures |st.window| <= FineCapacity ==> |r.state.window| <= FineCapacity
    // the dwell clock is either untouched or restarted at `now`
    ensures r.state.dwellStart == st.dwellStart || r.state.dwellStart == Some(now)
    // a stop is registered exactly when the dwell matures
    ensures r.event.Some? <==> Matures(cfg, st, fix, now)
    // an inaccurate fix changes nothing but the previous position
    ensures !Accurate(fix) ==>
      r.event == None && r.state == st.(lastPos := Some(fix.pos))
    // at the garage: no stop, the clock restarts, the window empties, the anchor stays
    ensures Accurate(fix) && AtGarage(cfg, fix) ==>
      && r.event == None
      && r.state.dwellStart == Some(now)
      && r.state.window == []
      && r.state.anchor == st.anchor
    // the first accepted fix only starts the clock
    ensures Accurate(fix) && !AtGarage(cfg, fix) && st.lastPos.None? ==>
      r == Step(State(Some(fix.pos), Some(now), st.anchor, st.window), None)
    // an accepted fix with a previous position: the window and stability verdict
    ensures Accurate(fix) && !AtGarage(cfg, fix) && st.lastPos.Some? ==>
      var d := cfg.dist(fix.pos, st.lastPos.value);
      if Stable(cfg, st, fix, st.lastPos.value) then
        && r.state.window == NextWindow(st, d)
        && r.state.window[|r.state.window| - 1] == d
        && AllBelow(r.state.window, FineLimit)
      else
        && r.event == None
        && r.state.dwellStart == Some(now)
        && r.state.window == []
        && r.state.anchor == st.anchor
    // the first stable fix of a dwell starts the clock and sets the anchor
    ensures (Accurate(fix) && !AtGarage(cfg, fix) && st.lastPos.Some? && st.dwellStart.None?
      && Stable(cfg, st, fix, st.lastPos.value)) ==>
      r.state.dwellStart == Some(now) && r.state.anchor == Some(fix.pos)
    // a stable fix of an immature dwell keeps the clock and the anchor
    ensures (Accurate(fix) && !AtGarage(cfg, fix) && st.lastPos.Some? && st.dwellStart.Some?
      && Stable(cfg, st, fix, st.lastPos.value) && now - st.dwellStart.value < cfg.minDwell) ==>
      r.state.dwellStart == st.dwellStart && r.state.anchor == st.anchor
    // a registered stop carries the current position and the whole dwell, and restarts the clock
    ensures r.event.Some? ==>
      && r.event.value == StopEvent(fix.pos, st.dwellStart.value, now)
      && r.event.value.end - r.event.value.start >= cfg.minDwell
      && r.state.dwellStart == Some(now)
      && r.state.anchor == (if MovesAnchor(cfg, st.anchor, fix.pos) then Some(fix.pos) else st.anchor)
  {
    var r := Detect(cfg, st, fix, now);
    Step(r.state.(lastPos := Some(fix.pos)), r.event)
  }
}

=== FILE: detector_runs.dfy ===
/**
 * Properties of the detector over a whole stream of fixes, each handled by
 * `HandleLocation` in arrival order, starting from a freshly started service.
 */
module DetectorRuns {
  import opened Common
  import opened Detector

  /** A fix together with the wall-clock time at which it was handled. */
  datatype Reading = Reading(fix: Fix, now: int)

  datatype Outcome = Outcome(state: State, events: seq<StopEvent>)

  function EventList(e: Option<StopEvent>): seq<StopEvent>
  {
    match e
    case None => []
    case Some(v) => [v]
  }

  /** Handles one more reading after `o`. */
  function Next(cfg: Config, o: Outcome, r: Reading): Outcome
  {
    var step := HandleLocation(cfg, o.state, r.fix, r.now);
    Outcome(step.state, o.events + EventList(step.event))
  }

  /** Feeds the readings to the detector one by one and collects the stops it registers. */
  function Run(cfg: Config, st: State, rs: seq<Reading>): Outcome
    decreases |rs|
  {
    if rs == [] then Outcome(st, [])
    else Next(cfg, Run(cfg, st, rs[..|rs| - 1]), rs[|rs| - 1])
  }

  /** The handling times never go backwards. */
  predicate Monotone(rs: seq<Reading>)
  {
    forall i, j :: 0 <= i <= j < |rs| ==> rs[i].now <= rs[j].now
  }

  /**
   * Every stop covers at least `minDwell` milliseconds and consecutive stops
   * do not overlap: each one starts no earlier than the previous one ended.
   */
  predicate Spaced(es: seq<StopEvent>, minDwell: int)
  {
    && (forall i :: 0 <= i < |es| ==> es[i].end - es[i].start >= minDwell)
    && (forall i :: 0 <= i < |es| - 1 ==> es[i].end <= es[i + 1].start)
  }

  /**
   * The window bound holds in every state reached from the initial one.
   */
  lemma {:induction false} RunKeepsWindowBound(cfg: Config, rs: seq<Reading>)
    ensures |Run(cfg, Initial, rs).state.window| <= FineCapacity
    decreases |rs|
  {
    if rs != [] {
      RunKeepsWindowBound(cfg, rs[..|rs| - 1]);
    }
  }

  /**
   * What a run between times `first` and `latest` guarantees: spaced stops
   * inside that span, and a running dwell that started inside it and no
   * earlier than the last registered stop ended.
   */
  predicate Settled(cfg: Config, first: int, latest: int, o: Outcome)
  {
    && Spaced(o.events, cfg.minDwell)
    && (o.state.dwellStart.Some? ==> first <= o.state.dwellStart.value <= latest)
    && (o.events != [] ==>
          && first <= o.events[0].start
          && o.events[|o.events| - 1].end <= latest
          && o.state.dwellStart.Some?
          && o.events[|o.events| - 1].end <= o.state.dwellStart.value)
  }

  /** Handling one more reading, no earlier than the previous ones, keeps the guarantee. */
  lemma NextKeepsSettled(cfg: Config, first: int, latest: int, o: Outcome, r: Reading)
    requires Settled(cfg, first, latest, o)
    requires first <= r.now && latest <= r.now
    ensures Settled(cfg, first, r.now, Next(cfg, o, r))
  {
    var step := HandleLocation(cfg, o.state, r.fix, r.now);
    var es := o.events + EventList(step.event);
    if step.event.Some? {
      assert es[|es| - 1] == step.event.value;
      if o.events != [] {
        assert es[|o.events| - 1] == o.events[|o.events| - 1];
      }
    }
  }

  /**
   * Over a stream with non-decreasing times, starting from a fresh service,
   * the registered stops are spaced and lie within the stream's time span.
   */
  lemma {:induction false} RunSpacesStops(cfg: Config, rs: seq<Reading>)
    requires Monotone(rs)
    requires rs != []
    ensures Settled(cfg, rs[0].now, rs[|rs| - 1].now, Run(cfg, Initial, rs))
    decreases |rs|
  {
    var prefix := rs[..|rs| - 1];
    var last := rs[|rs| - 1];
    if prefix == [] {
      NextKeepsSettled(cfg, last.now, last.now, Outcome(Initial, []), last);
    } else {
      assert Monotone(prefix);
      RunSpacesStops(cfg, prefix);
      assert prefix[0] == rs[0];
      assert rs[|rs| - 2].now <= last.now;
      NextKeepsSettled(cfg, rs[0].now, prefix[|prefix| - 1].now, Run(cfg, Initial, prefix), last);
    }
  }

  /** Spaced stops of duration at least `minDwell` need `|es| * minDwell` milliseconds between them. */
  lemma {:induction false} SpacedSpan(es: seq<StopEvent>, minDwell: int)
    requires Spaced(es, minDwell)
    requires es != []
    ensures es[|es| - 1].end - es[0].start >= |es| * minDwell
    decreases |es|
  {
    if |es| > 1 {
      var prefix := es[..|es| - 1];
      assert Spaced(prefix, minDwell);
      SpacedSpan(prefix, minDwell);
      assert es[|es| - 2].end <= es[|es| - 1].start;
      assert (|es| - 1) * minDwell + minDwell == |es| * minDwell;
    }
  }

  /**
   * A stream whose times span less than `(n + 1) * minDwell` milliseconds
   * registers at most `n` stops: a dwell of three times the minimum cannot
   * page out more than three events.
   */
  lemma StopCountBound(cfg: Config, rs: seq<Reading>, n: nat)
    requires Monotone(rs)
    requires rs != []
    requires rs[|rs| - 1].now - rs[0].now < (n + 1) * cfg.minDwell
    ensures |Run(cfg, Initial, rs).events| <= n
  {
    var es := Run(cfg, Initial, rs).events;
    RunSpacesStops(cfg, rs);
    if es != [] {
      SpacedSpan(es, cfg.minDwell);
    }
  }
}

=== FILE: queue.dfy ===
/**
 * The offline tables shared by the three sync queues (`paradas_offline`,
 * `abastecimentos_offline`, `entregas_offline`), the single-row SQL
 * statements the drains issue against them, and the reference meaning of a
 * drain: what happens to each row, decided by that row alone.
 */
module Queue {
  import opened Common

  /** The result of one HTTP request: a 2xx response, another response, or an exception. */
  datatype Outcome = Accepted | Refused | Threw

  datatype Kind = Stops | Refuels | Deliveries

  /**
   * The columns each drain reads. Scalar form fields that are only copied into
   * the request (driver, fuel, prices, notes, ...) are not modelled.
   */
  datatype Payload =
    | StopData(truckId: int, pos: Coord, start: int, end: int)
    | RefuelData(truckId: int, photoColumns: seq<Option<string>>)
      // `fotos` after JSON decoding: None when the column does not parse
    | DeliveryData(status: Option<string>, photoList: Option<seq<string>>)

  /**
   * One row. `key` is the column the drain's statements filter on: `id` for
   * stops and refuels, `entrega_id` for deliveries. `sent` is `enviado`;
   * `inFlight` is the nullable `enviando` (the stop table has none: None).
   */
  datatype Record = Record(key: int, sent: int, inFlight: Option<int>, payload: Payload)

  /**
   * The send outcome the transport gives for each key during one drain, and
   * whether the `enviando = 1` update for that key succeeds (deliveries only).
   */
  datatype Oracle = Oracle(send: int -> Outcome, mark: int -> bool)

  /** One request issued by a drain: its kind, the row's key and the attached files. */
  datatype Part = Part(slot: nat, path: string)
  datatype Attempt = Attempt(kind: Kind, key: int, parts: seq<Part>)

  /** The table after a drain and the requests the drain issued, in order. */
  datatype Pass = Pass(table: seq<Record>, attempts: seq<Attempt>)

  /** `enviando IS NULL OR enviando = 0`. */
  predicate Idle(r: Record)
  {
    r.inFlight == None || r.inFlight == Some(0)
  }

  /** `status = 'concluida' OR status = 'parcial'`: only finished deliveries sync. */
  predicate Finished(r: Record)
  {
    r.payload.DeliveryData? && (r.payload.status == Some("concluida") || r.payload.status == Some("parcial"))
  }

  /** The WHERE clause of each drain's SELECT. */
  predicate Pending(kind: Kind, r: Record)
  {
    match kind
    case Stops => r.sent == 0
    case Refuels => r.sent == 0 && Idle(r)
    case Deliveries => r.sent == 0 && Idle(r) && Finished(r)
  }

  /**
   * A per-row test a drain applies: its SELECT's WHERE clause, a successful
   * in-flight mark, or surviving a DELETE by key.
   */
  datatype Test = PendingOf(kind: Kind) | MarkedBy(o: Oracle) | KeyOtherThan(k: int)

  predicate Passes(f: Test, x: Record)
  {
    match f
    case PendingOf(kind) => Pending(kind, x)
    case MarkedBy(o) => o.mark(x.key)
    case KeyOtherThan(k) => x.key != k
  }

  /** The positions from `from` on whose rows pass `f`, in increasing order. */
  function Positions(f: Test, s: seq<Record>, from: nat): seq<int>
    decreases |s| - from
  {
    if from >= |s| then []
    else (if Passes(f, s[from]) then [from] else []) + Positions(f, s, from + 1)
  }

  /** Each listed position is in range and its row passes. */
  lemma {:induction false} PositionsPass(f: Test, s: seq<Record>, from: nat)
    ensures forall i :: 0 <= i < |Positions(f, s, from)| ==> from <= Positions(f, s, from)[i] < |s|
    ensures forall i :: 0 <= i < |Positions(f, s, from)| ==> Passes(f, s[Positions(f, s, from)[i]])
    decreases |s| - from
  {
    if from < |s| {
      PositionsPass(f, s, from + 1);
      var idx := Positions(f, s, from);
      var rest := Positions(f, s, from + 1);
      var head: seq<int> := if Passes(f, s[from]) then [from] else [];
      assert idx == head + rest;
      forall i | |head| <= i < |idx|
        ensures from <= idx[i] < |s| && Passes(f, s[idx[i]])
      {
        assert idx[i] == rest[i - |head|];
      }
    }
  }

  /** Every passing row from `from` on has its position listed. */
  lemma {:induction false} PositionsComplete(f: Test, s: seq<Record>, from: nat)
    ensures forall j :: from <= j < |s| && Passes(f, s[j]) ==> j in Positions(f, s, from)
    decreases |s| - from
  {
    if from < |s| {
      PositionsComplete(f, s, from + 1);
      var idx := Positions(f, s, from);
      var rest := Positions(f, s, from + 1);
      assert forall j :: j in rest ==> j in idx;
    }
  }

  /** The positions are listed in increasing order, so none twice. */
  lemma {:induction false} PositionsIncrease(f: Test, s: seq<Record>, from: nat)
    ensures forall i, j :: 0 <= i < j < |Positions(f, s, from)| ==> Positions(f, s, from)[i] < Positions(f, s, from)[j]
    decreases |s| - from
  {
    if from < |s| {
      PositionsIncrease(f, s, from + 1);
      PositionsPass(f, s, from + 1);
      var idx := Positions(f, s, from);
      var rest := Positions(f, s, from + 1);
      var head: seq<int> := if Passes(f, s[from]) then [from] else [];
      assert idx == head + rest;
      assert forall i :: 0 <= i < |rest| ==> from + 1 <= rest[i];
      forall i, j | 0 <= i < j < |idx|
        ensures idx[i] < idx[j]
      {
        assert idx[j] == rest[j - |head|];
        if i >= |head| {
          assert idx[i] == rest[i - |head|];
        } else {
          var k := j - |head|;
          assert 0 <= k < |rest|;
          assert from + 1 <= rest[k];
          assert idx[i] == from;
        }
      }
    }
  }

  /** `idx` lists exactly the positions of `s` whose rows pass `f`, each once, in increasing order. */
  predicate ExactPositions(f: Test, s: seq<Record>, idx: seq<int>)
  {
    && (forall i :: 0 <= i < |idx| ==> 0 <= idx[i] < |s| && Passes(f, s[idx[i]]))
    && (forall j :: 0 <= j < |s| && Passes(f, s[j]) ==> j in idx)
    && (forall i, j :: 0 <= i < j < |idx| ==> idx[i] < idx[j])
  }

  lemma PositionsAreExact(f: Test, s: seq<Record>)
    ensures ExactPositions(f, s, Positions(f, s, 0))
  {
    PositionsPass(f, s, 0);
    PositionsComplete(f, s, 0);
    PositionsIncrease(f, s, 0);
  }

  /** The rows a drain's SELECT returns, in table order (`SelectInOrder`). */
  function Select(kind: Kind, t: seq<Record>): (r: seq<Record>)
    ensures forall x :: x in r <==> x in t && Pending(kind, x)
    ensures |r| <= |t|
  {
    if t == [] then []
    else (if Pending(kind, t[0]) then [t[0]] else []) + Select(kind, t[1..])
  }

  /**
   * The rows of `s` that pass `f`, in order. `Select` and the delivery
   * drain's `Marked` are this filter for the WHERE clause and for the mark.
   */
  function Kept(f: Test, s: seq<Record>): seq<Record>
  {
    if s == [] then []
    else (if Passes(f, s[0]) then [s[0]] else []) + Kept(f, s[1..])
  }

  /** One step of the filter and of its positions at `from`. */
  lemma KeptStep(f: Test, s: seq<Record>, from: nat)
    requires from < |s|
    ensures Kept(f, s[from..]) == (if Passes(f, s[from]) then [s[from]] else []) + Kept(f, s[from + 1..])
    ensures Positions(f, s, from) == (if Passes(f, s[from]) then [from] else []) + Positions(f, s, from + 1)
  {
    assert s[from..][1..] == s[from + 1..];
  }

  /** Prefixing a row and its position keeps rows and positions matched. */
  lemma MatchedCons(s: seq<Record>, head: seq<Record>, hi: seq<int>, rr: seq<Record>, ri: seq<int>)
    requires |head| == |hi| && |rr| == |ri|
    requires forall i :: 0 <= i < |hi| ==> 0 <= hi[i] < |s| && head[i] == s[hi[i]]
    requires forall i :: 0 <= i < |ri| ==> 0 <= ri[i] < |s| && rr[i] == s[ri[i]]
    ensures forall i :: 0 <= i < |hi + ri| ==> 0 <= (hi + ri)[i] < |s| && (head + rr)[i] == s[(hi + ri)[i]]
  {
    forall i | 0 <= i < |hi + ri|
      ensures 0 <= (hi + ri)[i] < |s| && (head + rr)[i] == s[(hi + ri)[i]]
    {
      if i >= |hi| {
        assert (head + rr)[i] == rr[i - |hi|] && (hi + ri)[i] == ri[i - |hi|];
      }
    }
  }

  lemma {:induction false} KeptFrom(f: Test, s: seq<Record>, from: nat)
    requires from <= |s|
    ensures |Kept(f, s[from..])| == |Positions(f, s, from)|
    ensures forall i :: 0 <= i < |Positions(f, s, from)| ==>
      0 <= Positions(f, s, from)[i] < |s| && Kept(f, s[from..])[i] == s[Positions(f, s, from)[i]]
    decreases |s| - from
  {
    if from < |s| {
      KeptFrom(f, s, from + 1);
      KeptStep(f, s, from);
      MatchedCons(s, if Passes(f, s[from]) then [s[from]] else [], if Passes(f, s[from]) then [from] else [],
        Kept(f, s[from + 1..]), Positions(f, s, from + 1));
    }
  }

  /**
   * A filter keeps order: its i-th row is the row at the i-th passing
   * position, and those positions are exactly the passing ones, increasing.
   */
  lemma KeptInOrder(f: Test, s: seq<Record>)
    ensures |Kept(f, s)| == |Positions(f, s, 0)|
    ensures ExactPositions(f, s, Positions(f, s, 0))
    ensures forall i :: 0 <= i < |Positions(f, s, 0)| ==> Kept(f, s)[i] == s[Positions(f, s, 0)[i]]
  {
    PositionsAreExact(f, s);
    KeptFrom(f, s, 0);
    assert s[0..] == s;
  }

  lemma {:induction false} SelectIsKept(kind: Kind, t: seq<Record>)
    ensures Select(kind, t) == Kept(PendingOf(kind), t)
    decreases |t|
  {
    if t != [] {
      SelectIsKept(kind, t[1..]);
    }
  }

  /**
   * The SELECT keeps table order: its i-th row is the table's row at the i-th
   * pending position, and those positions are exactly the pending ones, in
   * increasing order, so each pending row comes back once.
   */
  lemma SelectInOrder(kind: Kind, t: seq<Record>)
    ensures var r, idx := Select(kind, t), Positions(PendingOf(kind), t, 0);
      && |r| == |idx|
      && (forall i :: 0 <= i < |idx| ==> 0 <= idx[i] < |t| && Pending(kind, t[idx[i]]) && r[i] == t[idx[i]])
      && (forall j :: 0 <= j < |t| && Pending(kind, t[j]) ==> j in idx)
      && (forall i, j :: 0 <= i < j < |idx| ==> idx[i] < idx[j])
  {
    SelectIsKept(kind, t);
    KeptInOrder(PendingOf(kind), t);
  }

  function KeysOf(t: seq<Record>): set<int>
  {
    set x | x in t :: x.key
  }

  lemma KeysOfCons(t: seq<Record>)
    requires t != []
    ensures KeysOf(t) == {t[0].key} + KeysOf(t[1..])
  {
    assert forall x :: x in t <==> x == t[0] || x in t[1..];
  }

  predicate UniqueKeys(t: seq<Record>)
  {
    forall i, j :: 0 <= i < j < |t| ==> t[i].key != t[j].key
  }

  /** With unique keys, a key names at most one row. */
  lemma SameKeySameRow(t: seq<Record>, x: Record, y: Record)
    requires UniqueKeys(t) && x in t && y in t && x.key == y.key
    ensures x == y
  {
    var a :| 0 <= a < |t| && t[a] == x;
    var b :| 0 <= b < |t| && t[b] == y;
  }

  /** With unique keys, a row the SELECT skips has no selected twin carrying its key. */
  lemma NoPendingTwin(t: seq<Record>, kind: Kind, x: Record)
    requires UniqueKeys(t) && x in t && !Pending(kind, x)
    ensures !exists y :: y in t && Pending(kind, y) && y.key == x.key
  {
    forall y | y in t && y.key == x.key
      ensures !Pending(kind, y)
    {
      SameKeySameRow(t, x, y);
    }
  }

  /** The rest of a table with unique keys has unique keys, none of them the head's. */
  lemma UniqueTail(t: seq<Record>)
    requires UniqueKeys(t) && t != []
    ensures UniqueKeys(t[1..])
    ensures forall y :: y in t[1..] ==> y.key != t[0].key
  {
    forall y | y in t[1..]
      ensures y.key != t[0].key
    {
      var j :| 0 <= j < |t[1..]| && t[1..][j] == y;
      assert t[j + 1] == y;
    }
  }

  // ----- the single-row statements, by key -----

  /** `UPDATE … SET enviado = v WHERE key = k`. */
  function SetSent(t: seq<Record>, k: int, v: int): (r: seq<Record>)
    ensures |r| == |t|
    ensures forall i :: 0 <= i < |t| ==> r[i] == if t[i].key == k then t[i].(sent := v) else t[i]
  {
    if t == [] then []
    else [if t[0].key == k then t[0].(sent := v) else t[0]] + SetSent(t[1..], k, v)
  }

  /** `UPDATE … SET enviando = v WHERE key = k`. */
  function SetInFlight(t: seq<Record>, k: int, v: Option<int>): (r: seq<Record>)
    ensures |r| == |t|
    ensures forall i :: 0 <= i < |t| ==> r[i] == if t[i].key == k then t[i].(inFlight := v) else t[i]
  {
    if t == [] then []
    else [if t[0].key == k then t[0].(inFlight := v) else t[0]] + SetInFlight(t[1..], k, v)
  }

  /** `DELETE FROM … WHERE key = k`. */
  function DeleteKey(t: seq<Record>, k: int): (r: seq<Record>)
    ensures forall x :: x in r <==> x in t && x.key != k
    ensures |r| <= |t|
  {
    if t == [] then []
    else (if t[0].key == k then [] else [t[0]]) + DeleteKey(t[1..], k)
  }

  lemma {:induction false} DeleteKeyIsKept(t: seq<Record>, k: int)
    ensures DeleteKey(t, k) == Kept(KeyOtherThan(k), t)
    decreases |t|
  {
    if t != [] {
      DeleteKeyIsKept(t[1..], k);
    }
  }

  /**
   * The DELETE keeps every other row once and in place: the i-th surviving
   * row is the table's row at the i-th position whose key differs from `k`,
   * and those positions are exactly the ones whose key differs, in
   * increasing order.
   */
  lemma DeleteKeyInOrder(t: seq<Record>, k: int)
    ensures var r, idx := DeleteKey(t, k), Positions(KeyOtherThan(k), t, 0);
      && |r| == |idx|
      && (forall i :: 0 <= i < |idx| ==> 0 <= idx[i] < |t| && t[idx[i]].key != k && r[i] == t[idx[i]])
      && (forall j :: 0 <= j < |t| && t[j].key != k ==> j in idx)
      && (forall i, j :: 0 <= i < j < |idx| ==> idx[i] < idx[j])
  {
    DeleteKeyIsKept(t, k);
    KeptInOrder(KeyOtherThan(k), t);
  }

  // ----- reference semantics -----

  /** What a drain does to one row it handles. */
  datatype Disposition = Keep | MarkSent | Release | Remove

  /**
   * The disposition of a handled row: a stop is flagged sent on success; a
   * refuel is deleted on success and released otherwise; a delivery whose
   * in-flight mark could not be written is skipped, else treated like a refuel.
   */
  function Plan(kind: Kind, o: Oracle, k: int): Disposition
  {
    match kind
    case Stops => if o.send(k) == Accepted then MarkSent else Keep
    case Refuels => if o.send(k) == Accepted then Remove else Release
    case Deliveries =>
      if !o.mark(k) then Keep else if o.send(k) == Accepted then Remove else Release
  }

  function Apply(x: Record, d: Disposition): (r: seq<Record>)
    ensures |r| <= 1
    ensures forall y :: y in r ==> y.key == x.key && y.payload == x.payload
  {
    match d
    case Keep => [x]
    case MarkSent => [x.(sent := 1)]
    case Release => [x.(inFlight := Some(0))]
    case Remove => []
  }

  /** Applying a disposition twice is applying it once. */
  lemma ApplyIdempotent(x: Record, d: Disposition)
    ensures |Apply(x, d)| == 1 ==> Apply(Apply(x, d)[0], d) == Apply(x, d)
  {
  }

  /** Every row whose key is in `keys` gets its planned disposition; the rest stay as they are. */
  function Settle(t: seq<Record>, keys: set<int>, kind: Kind, o: Oracle): seq<Record>
  {
    if t == [] then []
    else (if t[0].key in keys then Apply(t[0], Plan(kind, o, t[0].key)) else [t[0]]) + Settle(t[1..], keys, kind, o)
  }

  /** What becomes of row `x` in a drain of `kind`: its planned disposition if pending, else nothing. */
  function Fate(kind: Kind, o: Oracle, x: Record): seq<Record>
  {
    Apply(x, if Pending(kind, x) then Plan(kind, o, x.key) else Keep)
  }

  /**
   * The reference meaning of a drain: every row meets its fate, decided by
   * that row alone, and the table order is kept.
   */
  function Expected(t: seq<Record>, kind: Kind, o: Oracle): (r: seq<Record>)
    ensures |r| <= |t|
    ensures forall x, y :: x in t && y in Fate(kind, o, x) ==> y in r
    ensures forall y :: y in r ==> exists x :: x in t && y in Fate(kind, o, x)
  {
    if t == [] then []
    else
      var rest := Expected(t[1..], kind, o);
      assert forall x :: x in t ==> x == t[0] || x in t[1..];
      Fate(kind, o, t[0]) + rest
  }

  /** A drain's reference outcome keeps keys unique, so the next drain can rely on them too. */
  lemma {:induction false} ExpectedKeepsUniqueKeys(t: seq<Record>, kind: Kind, o: Oracle)
    requires UniqueKeys(t)
    ensures UniqueKeys(Expected(t, kind, o))
    decreases |t|
  {
    if t != [] {
      UniqueTail(t);
      ExpectedKeepsUniqueKeys(t[1..], kind, o);
      var head, rest := Fate(kind, o, t[0]), Expected(t[1..], kind, o);
      var r := Expected(t, kind, o);
      assert r == head + rest;
      forall i, j | 0 <= i < j < |r|
        ensures r[i].key != r[j].key
      {
        if i < |head| {
          assert r[i] in head && r[j] == rest[j - |head|];
          assert rest[j - |head|] in rest;
        } else {
          assert r[i] == rest[i - |head|] && r[j] == rest[j - |head|];
        }
      }
    }
  }

  /**
   * With unique keys, a row whose disposition is removal leaves no row with
   * its key behind.
   */
  lemma ExpectedRemoves(t: seq<Record>, kind: Kind, o: Oracle, x: Record)
    requires UniqueKeys(t)
    requires x in t && Pending(kind, x) && Plan(kind, o, x.key) == Remove
    ensures forall y :: y in Expected(t, kind, o) ==> y.key != x.key
  {
    forall y | y in Expected(t, kind, o)
      ensures y.key != x.key
    {
      var x' :| x' in t && y in Fate(kind, o, x');
    }
  }

  /** Rows the drain does not select are kept as they are. */
  lemma {:induction false} ExpectedKeepsOthers(t: seq<Record>, kind: Kind, o: Oracle)
    ensures forall x :: x in t && !Pending(kind, x) ==> x in Expected(t, kind, o)
  {
    forall x | x in t && !Pending(kind, x)
      ensures x in Expected(t, kind, o)
    {
      assert x in Fate(kind, o, x);
    }
  }

  /** Selected rows whose disposition is to keep them stay as they are. */
  lemma {:induction false} ExpectedKeepsPlanned(t: seq<Record>, kind: Kind, o: Oracle)
    ensures forall x :: x in t && Pending(kind, x) && Plan(kind, o, x.key) == Keep ==> x in Expected(t, kind, o)
  {
    forall x | x in t && Pending(kind, x) && Plan(kind, o, x.key) == Keep
      ensures x in Expected(t, kind, o)
    {
      assert x in Fate(kind, o, x);
    }
  }

  /** With unique keys, the key of every row planned for removal is gone. */
  lemma {:induction false} ExpectedRemovesPlanned(t: seq<Record>, kind: Kind, o: Oracle)
    requires UniqueKeys(t)
    ensures forall x :: x in t && Pending(kind, x) && Plan(kind, o, x.key) == Remove ==>
      forall y :: y in Expected(t, kind, o) ==> y.key != x.key
  {
    forall x | x in t && Pending(kind, x) && Plan(kind, o, x.key) == Remove
      ensures forall y :: y in Expected(t, kind, o) ==> y.key != x.key
    {
      ExpectedRemoves(t, kind, o, x);
    }
  }

  /** Every row planned for release is back with `enviando = 0`. */
  lemma {:induction false} ExpectedReleasesPlanned(t: seq<Record>, kind: Kind, o: Oracle)
    ensures forall x :: x in t && Pending(kind, x) && Plan(kind, o, x.key) == Release ==>
      x.(inFlight := Some(0)) in Expected(t, kind, o)
  {
    forall x | x in t && Pending(kind, x) && Plan(kind, o, x.key) == Release
      ensures x.(inFlight := Some(0)) in Expected(t, kind, o)
    {
      assert x.(inFlight := Some(0)) in Fate(kind, o, x);
    }
  }

  // ----- lemmas connecting the statements to the reference semantics -----

  lemma {:induction false} SettleAppend(a: seq<Record>, b: seq<Record>, keys: set<int>, kind: Kind, o: Oracle)
    ensures Settle(a + b, keys, kind, o) == Settle(a, keys, kind, o) + Settle(b, keys, kind, o)
    decreases |a|
  {
    if a == [] {
      assert a + b == b;
    } else {
      assert a + b == [a[0]] + (a[1..] + b);
      SettleAppend(a[1..], b, keys, kind, o);
    }
  }

  /** Settling no key leaves the table as it is. */
  lemma {:induction false} SettleNothing(t: seq<Record>, kind: Kind, o: Oracle)
    ensures Settle(t, {}, kind, o) == t
    decreases |t|
  {
    if t != [] {
      SettleNothing(t[1..], kind, o);
    }
  }

  /** Settling by `A` and then by `B` is settling by both at once. */
  lemma {:induction false} SettleTwice(t: seq<Record>, A: set<int>, B: set<int>, kind: Kind, o: Oracle)
    ensures Settle(Settle(t, A, kind, o), B, kind, o) == Settle(t, A + B, kind, o)
    decreases |t|
  {
    if t != [] {
      var x := t[0];
      var head := if x.key in A then Apply(x, Plan(kind, o, x.key)) else [x];
      SettleAppend(head, Settle(t[1..], A, kind, o), B, kind, o);
      SettleTwice(t[1..], A, B, kind, o);
      if x.key in A {
        ApplyIdempotent(x, Plan(kind, o, x.key));
        if |head| == 1 {
          assert Settle(head, B, kind, o) == (if x.key in B then Apply(head[0], Plan(kind, o, x.key)) else head) + Settle([], B, kind, o);
        }
      } else {
        assert Settle(head, B, kind, o) == (if x.key in B then Apply(x, Plan(kind, o, x.key)) else [x]) + Settle([], B, kind, o);
      }
    }
  }

  /** Keys that no row carries make no difference. */
  lemma {:induction false} SettleIgnoresAbsent(t: seq<Record>, keys: set<int>, k: int, kind: Kind, o: Oracle)
    requires forall x :: x in t ==> x.key != k
    ensures Settle(t, keys + {k}, kind, o) == Settle(t, keys, kind, o)
    decreases |t|
  {
    if t != [] {
      assert forall x :: x in t[1..] ==> x in t;
      SettleIgnoresAbsent(t[1..], keys, k, kind, o);
    }
  }

  lemma SelectedKeysCons(kind: Kind, t: seq<Record>)
    requires t != []
    ensures KeysOf(Select(kind, t)) ==
      (if Pending(kind, t[0]) then {t[0].key} else {}) + KeysOf(Select(kind, t[1..]))
  {
    var rest := Select(kind, t[1..]);
    if Pending(kind, t[0]) {
      assert Select(kind, t) == [t[0]] + rest;
      assert forall x :: x in Select(kind, t) <==> x == t[0] || x in rest;
    } else {
      assert Select(kind, t) == rest;
    }
  }

  /** With unique keys, settling exactly the pending rows' keys is the reference meaning. */
  lemma {:induction false} SettlePendingIsExpected(t: seq<Record>, kind: Kind, o: Oracle)
    requires UniqueKeys(t)
    ensures Settle(t, KeysOf(Select(kind, t)), kind, o) == Expected(t, kind, o)
    decreases |t|
  {
    if t != [] {
      var x := t[0];
      var rest := t[1..];
      UniqueTail(t);
      SettlePendingIsExpected(rest, kind, o);
      var selRest := KeysOf(Select(kind, rest));
      assert t == [x] + rest;
      SelectedKeysCons(kind, t);
      if Pending(kind, x) {
        assert KeysOf(Select(kind, t)) == selRest + {x.key};
        SettleIgnoresAbsent(rest, selRest, x.key, kind, o);
      } else {
        assert KeysOf(Select(kind, t)) == selRest;
        assert x.key !in selRest;
      }
    }
  }

  /** The single statement that carries out a disposition on the rows with key `k`. */
  function Effect(t: seq<Record>, k: int, d: Disposition): seq<Record>
  {
    match d
    case Keep => t
    case MarkSent => SetSent(t, k, 1)
    case Release => SetInFlight(t, k, Some(0))
    case Remove => DeleteKey(t, k)
  }

  /** Carrying out a key's planned disposition with its statement settles that key. */
  lemma {:induction false} EffectIsSettle(t: seq<Record>, k: int, kind: Kind, o: Oracle)
    ensures Effect(t, k, Plan(kind, o, k)) == Settle(t, {k}, kind, o)
    decreases |t|
  {
    if t != [] {
      EffectIsSettle(t[1..], k, kind, o);
      var d := Plan(kind, o, k);
      match d
      case Keep =>
        assert t == [t[0]] + t[1..];
      case MarkSent =>
        assert SetSent(t, k, 1) == [if t[0].key == k then t[0].(sent := 1) else t[0]] + SetSent(t[1..], k, 1);
      case Release =>
        assert SetInFlight(t, k, Some(0)) == [if t[0].key == k then t[0].(inFlight := Some(0)) else t[0]] + SetInFlight(t[1..], k, Some(0));
      case Remove =>
        assert DeleteKey(t, k) == (if t[0].key == k then [] else [t[0]]) + DeleteKey(t[1..], k);
    }
  }

  /** Marking a row in flight and then deleting it is deleting it. */
  lemma {:induction false} MarkThenDelete(t: seq<Record>, k: int)
    ensures DeleteKey(SetInFlight(t, k, Some(1)), k) == DeleteKey(t, k)
    decreases |t|
  {
    if t != [] {
      MarkThenDelete(t[1..], k);
      var m := SetInFlight(t, k, Some(1));
      assert m == [m[0]] + SetInFlight(t[1..], k, Some(1));
    }
  }

  /** Marking a row in flight and then releasing it is releasing it. */
  lemma MarkThenRelease(t: seq<Record>, k: int)
    ensures SetInFlight(SetInFlight(t, k, Some(1)), k, Some(0)) == SetInFlight(t, k, Some(0))
  {
    var a := SetInFlight(SetInFlight(t, k, Some(1)), k, Some(0));
    var b := SetInFlight(t, k, Some(0));
    assert forall i :: 0 <= i < |t| ==> a[i] == b[i];
  }
}

=== FILE: refuel_queue.dfy ===
/**
 * The refuel queue drain (`enviarAbastecimentosPendentes`): each pending row
 * is marked in flight, sent with its photos, then deleted on a 2xx response
 * or released (`enviando = 0`) on any other response or exception.
 */
module RefuelQueue {
  import opened Common
  import opened Queue
  import opened Attachments

  /** The statements issued for one row with key `k`: mark, then delete or release. */
  function SendOne(t: seq<Record>, k: int, o: Oracle): seq<Record>
  {
    var marked := SetInFlight(t, k, Some(1));
    if o.send(k) == Accepted then DeleteKey(marked, k) else SetInFlight(marked, k, Some(0))
  }

  /** One row's statements settle exactly the rows carrying its key. */
  lemma SendOneSettles(t: seq<Record>, k: int, o: Oracle)
    ensures SendOne(t, k, o) == Settle(t, {k}, Refuels, o)
  {
    EffectIsSettle(t, k, Refuels, o);
    if o.send(k) == Accepted {
      MarkThenDelete(t, k);
      assert SendOne(t, k, o) == Effect(t, k, Remove);
    } else {
      MarkThenRelease(t, k);
      assert SendOne(t, k, o) == Effect(t, k, Release);
    }
  }

  /**
   * The statements the cursor loop issues over the rows the SELECT returned.
   * A row's statements touch only rows carrying its key.
   */
  function Flush(t: seq<Record>, sel: seq<Record>, o: Oracle): (r: seq<Record>)
    ensures r == Settle(t, KeysOf(sel), Refuels, o)
    decreases |sel|
  {
    if sel == [] then
      assert KeysOf(sel) == {};
      SettleNothing(t, Refuels, o);
      t
    else
      var k := sel[0].key;
      SendOneSettles(t, k, o);
      SettleTwice(t, {k}, KeysOf(sel[1..]), Refuels, o);
      KeysOfCons(sel);
      Flush(SendOne(t, k, o), sel[1..], o)
  }

  /**
   * One drain of the refuel table. Without an open database or a token
   * nothing happens; otherwise every pending row is attempted, in table
   * order, and (keys being unique) the table becomes the reference outcome.
   */
  function Drain(open: bool, token: Option<string>, t: seq<Record>, o: Oracle, fs: Files): (r: Pass)
    ensures !open || !HasToken(token) ==> r == Pass(t, [])
    ensures open && HasToken(token) ==>
      var sel := Select(Refuels, t);
      && |r.attempts| == |sel|
      && forall i :: 0 <= i < |sel| ==> r.attempts[i].key == sel[i].key && r.attempts[i] == Request(Refuels, sel[i], fs)
    ensures open && HasToken(token) && UniqueKeys(t) ==> r.table == Expected(t, Refuels, o)
  {
    if !open || !HasToken(token) then Pass(t, [])
    else
      var sel := Select(Refuels, t);
      var r := Pass(Flush(t, sel, o), Requests(Refuels, sel, fs));
      if UniqueKeys(t) then SettlePendingIsExpected(t, Refuels, o); r else r
  }

  /**
   * What a drain with a database and a token does to each row, keys being
   * unique: a row it does not select is left as it is; a selected row is
   * deleted on a 2xx response and otherwise put back with `enviando = 0`;
   * no other row appears.
   */
  lemma {:induction false} DrainSettlesEachRow(token: Option<string>, t: seq<Record>, o: Oracle, fs: Files)
    requires HasToken(token) && UniqueKeys(t)
    ensures var t' := Drain(true, token, t, o, fs).table;
      && (forall x :: x in t && !Pending(Refuels, x) ==> x in t')
      && (forall x :: x in t && Pending(Refuels, x) && o.send(x.key) == Accepted ==>
            forall y :: y in t' ==> y.key != x.key)
      && (forall x :: x in t && Pending(Refuels, x) && o.send(x.key) != Accepted ==>
            x.(inFlight := Some(0)) in t')
      && (forall y :: y in t' ==> y in t || exists x :: x in t && Pending(Refuels, x) && y == x.(inFlight := Some(0)))
  {
    var t' := Drain(true, token, t, o, fs).table;
    assert t' == Expected(t, Refuels, o);
    ExpectedKeepsOthers(t, Refuels, o);
    ExpectedRemovesPlanned(t, Refuels, o);
    ExpectedReleasesPlanned(t, Refuels, o);
    AddsNothing(t, o);
  }

  /** The only rows a refuel drain can produce are released copies of pending rows. */
  lemma {:induction false} AddsNothing(t: seq<Record>, o: Oracle)
    ensures forall y :: y in Expected(t, Refuels, o) ==>
      y in t || exists x :: x in t && Pending(Refuels, x) && y == x.(inFlight := Some(0))
  {
    forall y | y in Expected(t, Refuels, o)
      ensures y in t || exists x :: x in t && Pending(Refuels, x) && y == x.(inFlight := Some(0))
    {
      var x :| x in t && y in Fate(Refuels, o, x);
      if Pending(Refuels, x) {
        assert y == x.(inFlight := Some(0));
      }
    }
  }

  /** A drain with a database and a token attempts a key exactly when some pending row carries it. */
  lemma AttemptedIffPending(token: Option<string>, t: seq<Record>, o: Oracle, fs: Files, k: int)
    requires HasToken(token)
    ensures var a := Drain(true, token, t, o, fs).attempts;
      (exists i :: 0 <= i < |a| && a[i].key == k) <==> exists y :: y in t && Pending(Refuels, y) && y.key == k
  {
    var sel := Select(Refuels, t);
    assert Drain(true, token, t, o, fs).attempts == Requests(Refuels, sel, fs);
    RequestedKeys(Refuels, sel, fs, k);
  }

  /**
   * A row left with `enviando = 1` (a drain interrupted between marking and
   * resolving it) is never selected again: every later drain leaves it as it
   * is and sends nothing for its key.
   */
  lemma StrandedRowStays(token: Option<string>, t: seq<Record>, o: Oracle, fs: Files, x: Record)
    requires UniqueKeys(t) && x in t && x.inFlight == Some(1)
    ensures var r := Drain(true, token, t, o, fs);
      && x in r.table
      && forall i :: 0 <= i < |r.attempts| ==> r.attempts[i].key != x.key
  {
    if HasToken(token) {
      ExpectedKeepsOthers(t, Refuels, o);
      NoPendingTwin(t, Refuels, x);
      AttemptedIffPending(token, t, o, fs, x.key);
    }
  }

  /** A drain keeps the table's keys unique. */
  lemma DrainKeepsUniqueKeys(open: bool, token: Option<string>, t: seq<Record>, o: Oracle, fs: Files)
    requires UniqueKeys(t)
    ensures UniqueKeys(Drain(open, token, t, o, fs).table)
  {
    if open && HasToken(token) {
      ExpectedKeepsUniqueKeys(t, Refuels, o);
    }
  }

  /** The table after one drain per oracle, in order, each with a database and the same token. */
  function DrainAll(token: Option<string>, t: seq<Record>, os: seq<Oracle>, fs: Files): seq<Record>
    decreases |os|
  {
    if os == [] then t else DrainAll(token, Drain(true, token, t, os[0], fs).table, os[1..], fs)
  }

  /** A stranded row survives any number of drains, whatever their responses. */
  lemma {:induction false} StrandedRowOutlivesDrains(token: Option<string>, t: seq<Record>, os: seq<Oracle>, fs: Files, x: Record)
    requires UniqueKeys(t) && x in t && x.inFlight == Some(1)
    ensures x in DrainAll(token, t, os, fs)
    decreases |os|
  {
    if os != [] {
      StrandedRowStays(token, t, os[0], fs, x);
      DrainKeepsUniqueKeys(true, token, t, os[0], fs);
      StrandedRowOutlivesDrains(token, Drain(true, token, t, os[0], fs).table, os[1..], fs, x);
    }
  }

  /**
   * Once a drain sees a 2xx response for a row, no later drain sends it
   * again; a row whose send failed is sent again by the next drain.
   */
  lemma NextDrainRetriesOnlyFailures(token: Option<string>, t: seq<Record>, o: Oracle, o': Oracle, fs: Files, x: Record)
    requires HasToken(token) && UniqueKeys(t)
    requires x in t && Pending(Refuels, x)
    ensures var t' := Drain(true, token, t, o, fs).table;
      var again := Drain(true, token, t', o', fs).attempts;
      (exists i :: 0 <= i < |again| && again[i].key == x.key) <==> o.send(x.key) != Accepted
  {
    var t' := Drain(true, token, t, o, fs).table;
    DrainSettlesEachRow(token, t, o, fs);
    AttemptedIffPending(token, t', o', fs, x.key);
    if o.send(x.key) != Accepted {
      assert x.(inFlight := Some(0)) in t';
    }
  }
}

=== FILE: stability.dfy ===
/**
 * The coarse motion-stability filter (`estaRealmenteParado`): a window of the
 * last five displacements, declared still when none exceeds eight metres.
 */
module Stability {
  import opened Window

  const CoarseCapacity: nat := 5
  const FlutterLimit: real := 8.0

  datatype Verdict = Verdict(window: seq<real>, still: bool)

  /** One call of the filter: the updated window and the stillness verdict. */
  function CoarseCheck(w: seq<real>, d: real): (r: Verdict)
    ensures |w| <= CoarseCapacity ==> r.window == Newest(w + [d], CoarseCapacity)
    ensures |r.window| > 0 && r.window[|r.window| - 1] == d
    ensures r.still <==> AllAtMost(r.window, FlutterLimit)
    ensures r.still ==> d <= FlutterLimit
  {
    var w' := Push(w, d, CoarseCapacity);
    Verdict(w', AllAtMost(w', FlutterLimit))
  }

  /** The window after feeding `ds`, one sample per call, starting from `w`. */
  function WindowAfter(w: seq<real>, ds: seq<real>): seq<real>
    decreases |ds|
  {
    if ds == [] then w else CoarseCheck(WindowAfter(w, ds[..|ds| - 1]), ds[|ds| - 1]).window
  }

  /** The verdict returned by the last of the calls that fed `ds`, starting from window `w`. */
  function LastVerdict(w: seq<real>, ds: seq<real>): bool
    requires ds != []
  {
    CoarseCheck(WindowAfter(w, ds[..|ds| - 1]), ds[|ds| - 1]).still
  }

  /** The window always holds exactly the newest five samples of the whole history. */
  lemma {:induction false} WindowIsNewest(w: seq<real>, ds: seq<real>)
    requires |w| <= CoarseCapacity
    ensures WindowAfter(w, ds) == Newest(w + ds, CoarseCapacity)
    decreases |ds|
  {
    if ds != [] {
      var prefix, d := ds[..|ds| - 1], ds[|ds| - 1];
      calc {
        WindowAfter(w, ds);
        CoarseCheck(WindowAfter(w, prefix), d).window;
        { WindowIsNewest(w, prefix); }
        Push(Newest(w + prefix, CoarseCapacity), d, CoarseCapacity);
        { PushNewest(w + prefix, d, CoarseCapacity); }
        Newest((w + prefix) + [d], CoarseCapacity);
        { assert (w + prefix) + [d] == w + ds; }
        Newest(w + ds, CoarseCapacity);
      }
    }
  }

  /**
   * A call reports still exactly when the newest five samples of the whole
   * history (the initial window included) are all within the flutter limit.
   */
  lemma VerdictIsNewestWithinLimit(w: seq<real>, ds: seq<real>)
    requires |w| <= CoarseCapacity
    requires ds != []
    ensures LastVerdict(w, ds) <==> AllAtMost(Newest(w + ds, CoarseCapacity), FlutterLimit)
  {
    WindowIsNewest(w, ds);
  }

  /**
   * One sample above the limit makes that call and the four calls after it
   * report not still, whatever the other samples are: `ds` ends at most four
   * samples after the excursion at position j.
   */
  lemma ExcursionBlocksStillness(w: seq<real>, ds: seq<real>, j: nat)
    requires |w| <= CoarseCapacity
    requires j < |ds| < j + 1 + CoarseCapacity
    requires ds[j] > FlutterLimit
    ensures !LastVerdict(w, ds)
  {
    VerdictIsNewestWithinLimit(w, ds);
    var h := w + ds;
    var n := Newest(h, CoarseCapacity);
    var at := |w| + j;
    assert h[at] == ds[j];
    assert n[at - (|h| - |n|)] == h[at];
  }

  /**
   * Five consecutive samples within the limit make the call that receives
   * the fifth report still, whatever came before them.
   */
  lemma FiveQuietSamplesSettle(w: seq<real>, ds: seq<real>)
    requires |w| <= CoarseCapacity
    requires |ds| >= CoarseCapacity
    requires forall k :: |ds| - CoarseCapacity <= k < |ds| ==> ds[k] <= FlutterLimit
    ensures LastVerdict(w, ds)
  {
    VerdictIsNewestWithinLimit(w, ds);
    var h := w + ds;
    var n := Newest(h, CoarseCapacity);
    forall m | 0 <= m < |n|
      ensures n[m] <= FlutterLimit
    {
      assert n[m] == h[|h| - CoarseCapacity + m];
      assert h[|h| - CoarseCapacity + m] == ds[|ds| - CoarseCapacity + m];
    }
  }
}

=== FILE: stop_queue.dfy ===
/**
 * The stop queue: handing a detected stop to the server or to the offline
 * table (`registrarParada`, `salvarParadaOffline`) and draining that table
 * (`enviarParadasPendentes`). A drained stop is flagged `enviado = 1`; stop
 * rows are never deleted.
 */
module StopQueue {
  import opened Common
  import opened Queue
  import Detector

  /** The first INSERT: stored, refused with a lock error, or failed otherwise. */
  datatype InsertOutcome = Inserted | Locked | InsertFailed

  /**
   * What the environment does while a stop is handed over: connectivity, the
   * immediate send's outcome, the first INSERT's outcome, whether the single
   * retry after a lock error stores the row, and the id the table assigns.
   */
  datatype Handover = Handover(connected: bool, send: Outcome, insert: InsertOutcome, retryInserted: bool, newId: int)

  /** Sent at once, saved for a later drain, or lost (only logged). */
  datatype Submission = SentOnline | Saved | Lost

  datatype Submitted = Submitted(table: seq<Record>, result: Submission)

  /** The offline row for a stop: `enviado = 0` and no `enviando` column. */
  function StopRow(truckId: int, ev: Detector.StopEvent, id: int): Record
  {
    Record(id, 0, None, StopData(truckId, ev.pos, ev.start, ev.end))
  }

  /**
   * `salvarParadaOffline`. With no database the statement is skipped; a
   * missing truck id makes reading the JSON fail before the INSERT, which is
   * caught and logged; a lock error earns one retry.
   */
  function SaveOffline(open: bool, truckId: Option<int>, ev: Detector.StopEvent, h: Handover, t: seq<Record>): Submitted
  {
    if !open || truckId.None? then Submitted(t, Lost)
    else
      var stored := Submitted(t + [StopRow(truckId.value, ev, h.newId)], Saved);
      match h.insert
      case Inserted => stored
      case Locked => if h.retryInserted then stored else Submitted(t, Lost)
      case InsertFailed => Submitted(t, Lost)
  }

  /**
   * `registrarParada`: the stop goes straight to the server when connected
   * and the send gets a 2xx response; otherwise it is saved offline. Without
   * a truck id building the request throws, so it falls through to the
   * offline path, which loses it.
   */
  function Submit(open: bool, truckId: Option<int>, ev: Detector.StopEvent, h: Handover, t: seq<Record>): (r: Submitted)
    ensures r.result == SentOnline <==> h.connected && truckId.Some? && h.send == Accepted
    ensures r.result == Saved <==>
      && !(h.connected && h.send == Accepted)
      && open && truckId.Some?
      && (h.insert == Inserted || (h.insert == Locked && h.retryInserted))
    ensures r.result == Saved ==>
      && |r.table| == |t| + 1
      && r.table == t + [r.table[|t|]]
      && r.table[|t|].key == h.newId
      && r.table[|t|].payload == StopData(truckId.value, ev.pos, ev.start, ev.end)
      && Pending(Stops, r.table[|t|])
    ensures r.result != Saved ==> r.table == t
  {
    if h.connected && truckId.Some? && h.send == Accepted then Submitted(t, SentOnline)
    else SaveOffline(open, truckId, ev, h, t)
  }

  /** The statement issued for one row with key `k`: flag it sent on a 2xx response. */
  function SendOne(t: seq<Record>, k: int, o: Oracle): seq<Record>
  {
    if o.send(k) == Accepted then SetSent(t, k, 1) else t
  }

  /** One row's statement settles exactly the rows carrying its key. */
  lemma SendOneSettles(t: seq<Record>, k: int, o: Oracle)
    ensures SendOne(t, k, o) == Settle(t, {k}, Stops, o)
  {
    EffectIsSettle(t, k, Stops, o);
  }

  /** The cursor loop over the rows the SELECT returned. */
  function SendAll(t: seq<Record>, sel: seq<Record>, o: Oracle): (r: Pass)
    ensures |r.attempts| == |sel|
    ensures forall i :: 0 <= i < |sel| ==> r.attempts[i] == Attempt(Stops, sel[i].key, [])
    ensures r.table == Settle(t, KeysOf(sel), Stops, o)
    decreases |sel|
  {
    if sel == [] then
      assert KeysOf(sel) == {};
      SettleNothing(t, Stops, o);
      Pass(t, [])
    else
      var k := sel[0].key;
      var rest := SendAll(SendOne(t, k, o), sel[1..], o);
      SendOneSettles(t, k, o);
      SettleTwice(t, {k}, KeysOf(sel[1..]), Stops, o);
      KeysOfCons(sel);
      Pass(rest.table, [Attempt(Stops, k, [])] + rest.attempts)
  }

  /**
   * One drain of the stop table. Without an open database or a token nothing
   * happens; otherwise every row with `enviado = 0` is sent, in table order,
   * and (keys being unique) the table becomes the reference outcome.
   */
  function Drain(open: bool, token: Option<string>, t: seq<Record>, o: Oracle): (r: Pass)
    ensures !open || !HasToken(token) ==> r == Pass(t, [])
    ensures open && HasToken(token) ==>
      var sel := Select(Stops, t);
      && |r.attempts| == |sel|
      && forall i :: 0 <= i < |sel| ==> r.attempts[i] == Attempt(Stops, sel[i].key, [])
    ensures open && HasToken(token) && UniqueKeys(t) ==> r.table == Expected(t, Stops, o)
  {
    if !open || !HasToken(token) then Pass(t, [])
    else
      var sel := Select(Stops, t);
      var r := SendAll(t, sel, o);
      if UniqueKeys(t) then SettlePendingIsExpected(t, Stops, o); r else r
  }

  /** For stops the reference outcome is row by row: nothing is deleted, only flags change. */
  lemma {:induction false} ExpectedFlagsInPlace(t: seq<Record>, o: Oracle)
    ensures var t' := Expected(t, Stops, o);
      && |t'| == |t|
      && forall i :: 0 <= i < |t| ==>
           t'[i] == if Pending(Stops, t[i]) && o.send(t[i].key) == Accepted then t[i].(sent := 1) else t[i]
    decreases |t|
  {
    if t != [] {
      ExpectedFlagsInPlace(t[1..], o);
    }
  }

  /**
   * A drain with a database and a token flags exactly the unsent rows that
   * got a 2xx response and leaves every other row, field and position as it
   * was; nothing is deleted.
   */
  lemma DrainFlagsSentRows(token: Option<string>, t: seq<Record>, o: Oracle)
    requires HasToken(token) && UniqueKeys(t)
    ensures var t' := Drain(true, token, t, o).table;
      && |t'| == |t|
      && forall i :: 0 <= i < |t| ==>
           t'[i] == if t[i].sent == 0 && o.send(t[i].key) == Accepted then t[i].(sent := 1) else t[i]
  {
    ExpectedFlagsInPlace(t, o);
  }

  /**
   * A stop saved offline is sent by the next drain that has a database and
   * a token.
   */
  lemma SavedStopIsSentNextDrain(truckId: Option<int>, ev: Detector.StopEvent, h: Handover, t: seq<Record>,
                                 token: Option<string>, o: Oracle)
    requires HasToken(token)
    requires Submit(true, truckId, ev, h, t).result == Saved
    ensures var t' := Submit(true, truckId, ev, h, t).table;
      exists i :: 0 <= i < |Drain(true, token, t', o).attempts| && Drain(true, token, t', o).attempts[i].key == h.newId
  {
    var t' := Submit(true, truckId, ev, h, t).table;
    var row := t'[|t'| - 1];
    var sel := Select(Stops, t');
    assert row in t';
    assert row in sel;
    var i :| 0 <= i < |sel| && sel[i] == row;
    assert Drain(true, token, t', o).attempts[i].key == h.newId;
  }
}

=== FILE: sync.dfy ===
/**
 * One iteration of the background sync loop (`startSyncLoop`): when the
 * device is connected, drain deliveries (only if any is pending), then stops,
 * then refuels. The ten-second pause between iterations is not modelled.
 */
module Sync {
  import opened Common
  import opened Queue
  import opened Attachments
  import StopQueue
  import RefuelQueue
  import DeliveryQueue

  /** The three offline tables; `open` says whether the database could be opened. */
  datatype Store = Store(open: bool, stops: seq<Record>, refuels: seq<Record>, deliveries: seq<Record>)

  /** Connectivity and the server's answers for each table during one iteration. */
  datatype Link = Link(connected: bool, stops: Oracle, refuels: Oracle, deliveries: Oracle)

  datatype Ticked = Ticked(store: Store, attempts: seq<Attempt>)

  /** The position of a kind in the loop's order. */
  function Rank(k: Kind): nat
  {
    match k
    case Deliveries => 0
    case Stops => 1
    case Refuels => 2
  }

  /** Every attempt of the pass is of kind `k`. */
  predicate AllOfKind(p: Pass, k: Kind)
  {
    forall i :: 0 <= i < |p.attempts| ==> p.attempts[i].kind == k
  }

  lemma DrainsAreSorted(d: Pass, s: Pass, f: Pass)
    requires AllOfKind(d, Deliveries) && AllOfKind(s, Stops) && AllOfKind(f, Refuels)
    ensures var a := d.attempts + s.attempts + f.attempts;
      forall i, j :: 0 <= i < j < |a| ==> Rank(a[i].kind) <= Rank(a[j].kind)
  {
    var a := d.attempts + s.attempts + f.attempts;
    forall i | 0 <= i < |a|
      ensures Rank(a[i].kind) == if i < |d.attempts| then 0 else if i < |d.attempts| + |s.attempts| then 1 else 2
    {
      if i < |d.attempts| {
        assert a[i] == d.attempts[i];
      } else if i < |d.attempts| + |s.attempts| {
        assert a[i] == s.attempts[i - |d.attempts|];
      } else {
        assert a[i] == f.attempts[i - |d.attempts| - |s.attempts|];
      }
    }
  }

  function Tick(s: Store, token: Option<string>, link: Link, fs: Files): (r: Ticked)
    // offline: nothing is read or written
    ensures !link.connected ==> r == Ticked(s, [])
    // without a database or a token every drain returns at once
    ensures !s.open || !HasToken(token) ==> r == Ticked(s, [])
    // deliveries first, then stops, then refuels
    ensures forall i, j :: 0 <= i < j < |r.attempts| ==> Rank(r.attempts[i].kind) <= Rank(r.attempts[j].kind)
    // every table ends in its reference outcome
    ensures (link.connected && s.open && HasToken(token)
      && UniqueKeys(s.stops) && UniqueKeys(s.refuels) && UniqueKeys(s.deliveries)) ==>
      r.store == Store(true, Expected(s.stops, Stops, link.stops), Expected(s.refuels, Refuels, link.refuels),
                       Expected(s.deliveries, Deliveries, link.deliveries))
  {
    if !link.connected then Ticked(s, [])
    else
      var d :=
        if DeliveryQueue.HasPending(s.open, s.deliveries)
        then DeliveryQueue.Drain(s.open, token, s.deliveries, link.deliveries, fs)
        else Pass(s.deliveries, []);
      var st := StopQueue.Drain(s.open, token, s.stops, link.stops);
      var f := RefuelQueue.Drain(s.open, token, s.refuels, link.refuels, fs);
      GuardedDeliveryDrain(s.open, token, s.deliveries, link.deliveries, fs);
      KindsOfDeliveryDrain(s.open, token, s.deliveries, link.deliveries, fs);
      DrainsAreSorted(d, st, f);
      Ticked(Store(s.open, st.table, f.table, d.table), d.attempts + st.attempts + f.attempts)
  }

  /** Guarding the delivery drain with the pending check gives the drain's own result. */
  lemma GuardedDeliveryDrain(open: bool, token: Option<string>, t: seq<Record>, o: Oracle, fs: Files)
    ensures (if DeliveryQueue.HasPending(open, t) then DeliveryQueue.Drain(open, token, t, o, fs) else Pass(t, []))
      == DeliveryQueue.Drain(open, token, t, o, fs)
  {
    if !DeliveryQueue.HasPending(open, t) {
      DeliveryQueue.SkipWhenIdleIsHarmless(open, token, t, o, fs);
    }
  }

  lemma KindsOfDeliveryDrain(open: bool, token: Option<string>, t: seq<Record>, o: Oracle, fs: Files)
    ensures AllOfKind(DeliveryQueue.Drain(open, token, t, o, fs), Deliveries)
  {
    var p := DeliveryQueue.Drain(open, token, t, o, fs);
    forall i | 0 <= i < |p.attempts|
      ensures p.attempts[i].kind == Deliveries
    {
      assert p.attempts[i] in p.attempts;
    }
  }

  /**
   * The pending-deliveries check only saves a query: a connected iteration
   * equals running all three drains unconditionally.
   */
  lemma TickIsThreeDrains(s: Store, token: Option<string>, link: Link, fs: Files)
    requires link.connected
    ensures var d := DeliveryQueue.Drain(s.open, token, s.deliveries, link.deliveries, fs);
      var st := StopQueue.Drain(s.open, token, s.stops, link.stops);
      var f := RefuelQueue.Drain(s.open, token, s.refuels, link.refuels, fs);
      Tick(s, token, link, fs) == Ticked(Store(s.open, st.table, f.table, d.table), d.attempts + st.attempts + f.attempts)
  {
    GuardedDeliveryDrain(s.open, token, s.deliveries, link.deliveries, fs);
  }
}

=== FILE: throttle.dfy ===
/**
 * The location-send throttle (`sendLocation`): a position is posted only when
 * at least `SendInterval` milliseconds have passed since the last post, and
 * the time of the last post moves only when a post goes out.
 */
module Throttle {

  const SendInterval: int := 4000

  /** The throttle's decision and its new `lastLocationSentAt`. */
  datatype Gate = Gate(last: int, send: bool)

  function Admit(last: int, now: int): (r: Gate)
    ensures r.send <==> now - last >= SendInterval
    ensures r.send ==> r.last == now
    ensures !r.send ==> r.last == last
  {
    if now - last < SendInterval then Gate(last, false) else Gate(now, true)
  }

  /** The throttle state after a stream of handling times, and the times that were posted. */
  datatype History = History(last: int, sent: seq<int>)

  function Replay(last: int, ts: seq<int>): History
    decreases |ts|
  {
    if ts == [] then History(last, [])
    else
      var h := Replay(last, ts[..|ts| - 1]);
      var g := Admit(h.last, ts[|ts| - 1]);
      History(g.last, h.sent + (if g.send then [ts[|ts| - 1]] else []))
  }

  /** Posts at least `SendInterval` apart, the first one that far after `last`. */
  predicate Paced(last: int, sent: seq<int>)
  {
    && (sent != [] ==> sent[0] - last >= SendInterval)
    && (forall i :: 0 <= i < |sent| - 1 ==> sent[i + 1] - sent[i] >= SendInterval)
  }

  /**
   * Whatever the handling times, the posts are paced, each post is one of the
   * handling times (`PostsAreSubsequence` gives their positions), and the
   * throttle remembers the latest post.
   */
  lemma {:induction false} ReplayIsPaced(last: int, ts: seq<int>)
    ensures var h := Replay(last, ts);
      && Paced(last, h.sent)
      && |h.sent| <= |ts|
      && (forall i :: 0 <= i < |h.sent| ==> h.sent[i] in ts)
      && h.last == (if h.sent == [] then last else h.sent[|h.sent| - 1])
    decreases |ts|
  {
    if ts != [] {
      var prefix := ts[..|ts| - 1];
      ReplayIsPaced(last, prefix);
      var h := Replay(last, prefix);
      var h' := Replay(last, ts);
      forall i | 0 <= i < |h'.sent|
        ensures h'.sent[i] in ts
      {
        if i < |h.sent| {
          assert h'.sent[i] == h.sent[i];
          assert h.sent[i] in prefix;
        } else {
          assert h'.sent[i] == ts[|ts| - 1];
        }
      }
    }
  }

  /** The positions in `ts` of the handling times that were posted. */
  function PostIndices(last: int, ts: seq<int>): seq<int>
    decreases |ts|
  {
    if ts == [] then []
    else
      var prefix := ts[..|ts| - 1];
      PostIndices(last, prefix) + (if Admit(Replay(last, prefix).last, ts[|ts| - 1]).send then [|ts| - 1] else [])
  }

  /**
   * The posts are a subsequence of the handling times: they sit at strictly
   * increasing positions of the stream.
   */
  lemma {:induction false} PostsAreSubsequence(last: int, ts: seq<int>)
    ensures var sent := Replay(last, ts).sent;
      var idx := PostIndices(last, ts);
      && |idx| == |sent|
      && (forall i :: 0 <= i < |idx| ==> 0 <= idx[i] < |ts| && sent[i] == ts[idx[i]])
      && (forall i, j :: 0 <= i < j < |idx| ==> idx[i] < idx[j])
    decreases |ts|
  {
    if ts != [] {
      var prefix := ts[..|ts| - 1];
      PostsAreSubsequence(last, prefix);
      var sent := Replay(last, ts).sent;
      var idx := PostIndices(last, ts);
      var sp := Replay(last, prefix).sent;
      var ip := PostIndices(last, prefix);
      assert sent[..|sp|] == sp;
      assert idx[..|ip|] == ip;
      forall i | 0 <= i < |idx|
        ensures 0 <= idx[i] < |ts| && sent[i] == ts[idx[i]]
      {
        if i < |ip| {
          assert idx[i] == ip[i] && sent[i] == sp[i];
          assert prefix[ip[i]] == ts[ip[i]];
        }
      }
    }
  }

  /**
   * The throttle drops only what is too early: a stream of handling times
   * that is already paced is posted in full.
   */
  lemma {:induction false} PacedStreamPassesUnchanged(last: int, ts: seq<int>)
    requires Paced(last, ts)
    ensures Replay(last, ts).sent == ts
    ensures Replay(last, ts).last == if ts == [] then last else ts[|ts| - 1]
    decreases |ts|
  {
    if ts != [] {
      var prefix := ts[..|ts| - 1];
      assert Paced(last, prefix);
      PacedStreamPassesUnchanged(last, prefix);
      if prefix != [] {
        assert ts[|ts| - 1] - prefix[|prefix| - 1] >= SendInterval;
      }
    }
  }

  /** Replaying the posted times through a fresh throttle posts them all again. */
  lemma ReplayIdempotent(last: int, ts: seq<int>)
    ensures Replay(last, Replay(last, ts).sent).sent == Replay(last, ts).sent
  {
    ReplayIsPaced(last, ts);
    PacedStreamPassesUnchanged(last, Replay(last, ts).sent);
  }

  /** `n` posts need at least `n * SendInterval` milliseconds after `last`. */
  lemma {:induction false} PacedSpan(last: int, sent: seq<int>)
    requires Paced(last, sent)
    requires sent != []
    ensures sent[|sent| - 1] - last >= |sent| * SendInterval
    decreases |sent|
  {
    if |sent| > 1 {
      var prefix := sent[..|sent| - 1];
      assert Paced(last, prefix);
      PacedSpan(last, prefix);
      assert sent[|sent| - 1] - sent[|sent| - 2] >= SendInterval;
    }
  }

  /** Handling times spanning less than `(n + 1) * SendInterval` after `last` yield at most `n` posts. */
  lemma PostCountBound(last: int, ts: seq<int>, n: nat)
    requires forall i :: 0 <= i < |ts| ==> ts[i] - last < (n + 1) * SendInterval
    ensures |Replay(last, ts).sent| <= n
  {
    var h := Replay(last, ts);
    ReplayIsPaced(last, ts);
    if h.sent != [] {
      PacedSpan(last, h.sent);
      var x := h.sent[|h.sent| - 1];
      assert x in ts;
    }
  }
}

=== FILE: window.dfy ===
/**
 * The bounded sample window behind both stability checks: append the newest
 * displacement, then drop the oldest one if the window has grown past its
 * capacity (`add` followed by a single `removeAt(0)`).
 */
module Window {

  /** The last `k` elements of `s` (all of `s` when it is shorter). */
  function Newest(s: seq<real>, k: nat): (r: seq<real>)
    ensures |r| == if |s| < k then |s| else k
  {
    if |s| <= k then s else s[|s| - k..]
  }

  /** Appends `d` and evicts at most one element from the front. */
  function Push(w: seq<real>, d: real, cap: nat): (r: seq<real>)
    ensures |w| <= cap ==> r == Newest(w + [d], cap)
    ensures |w| <= cap ==> |r| <= cap
    ensures cap > 0 ==> |r| > 0 && r[|r| - 1] == d
  {
    var a := w + [d];
    if |a| > cap then a[1..] else a
  }

  /** Every sample is strictly below `limit` (the detector's `all { it < 5 }`). */
  predicate AllBelow(w: seq<real>, limit: real)
  {
    forall i :: 0 <= i < |w| ==> w[i] < limit
  }

  /** Every sample is at most `limit` (the coarse filter's `all { it <= 8.0 }`). */
  predicate AllAtMost(w: seq<real>, limit: real)
  {
    forall i :: 0 <= i < |w| ==> w[i] <= limit
  }

  /** Pushing onto the newest `cap` samples keeps the newest `cap` samples of the longer history. */
  lemma PushNewest(s: seq<real>, d: real, cap: nat)
    ensures Push(Newest(s, cap), d, cap) == Newest(s + [d], cap)
  {
    var w := Newest(s, cap);
    if |s| >= cap {
      if cap > 0 {
        assert Push(w, d, cap) == s[|s| - cap + 1..] + [d];
        assert (s + [d])[|s| + 1 - cap..] == s[|s| - cap + 1..] + [d];
      }
    }
  }
}
